=== FILE: README.md ===
# Centreon Engine: connector protocol, member release, recovery gate, hostgroup command

This project models five pieces of the Centreon Engine monitoring daemon in
Dafny and proves properties of them.

- **The connector wire protocol.** The engine hands checks to external
  *connectors*. It does so by sending an *execute query*: five NUL-separated
  fields, in order the kind id, the command id, the timeout, the start time in
  milliseconds and the command line, followed by the message ending. The
  model covers `execute_query::build` and `execute_query::restore`, the
  constructor, assignment, copy and `clone`, and `get_args`. The module is
  `ExecuteQueries`, in `execute_query.dfy`.
- **The request builder.** `request_builder::build` reads the numeric kind tag
  in front of the first NUL and looks up the prototype registered for that
  kind. It clones the prototype and restores the clone from the whole
  message. The constructor's table of six prototypes is modelled too. This is
  `RequestBuilder`, in `request_builder.dfy`. The kind ids and the connector
  errors are in `Requests` (`requests.dfy`).
- **Host member release.** `objects::release` frees the head record of a
  host group's linked member list and returns its successor. The C wrapper
  `release_hostsmember` is modelled with it. Memory is a map from addresses
  to records, with 0 as NULL. This is `HostsMembers`, in `hostsmember.dfy`.
- **The recovery notification gate.** The tests of host recovery
  notifications decide when asking for a recovery notification sends one.
  A sent notification advances the host's next notification id. This is
  `HostRecovery`, in `host_recovery.dfy`.
- **The ENABLE_HOSTGROUP_PASSIVE_SVC_CHECKS external command.** The model
  reads the command line `[<time>] VERB;group` and resolves the group by
  name. It then lets every service of every member host accept passive
  checks. This is `ExternalCommands`, in `external_commands.dfy`.

Shared building blocks:

- `Fields` (`fields.dfy`): the byte-array operations `indexOf`, `left` and
  `split`, with `Join` as the inverse of `split`.
- `Decimal` (`decimal.dfy`): decimal writing (`setNum`) and reading
  (`toUInt`, `toULong`, `toInt`, `toLongLong`) at the widths the engine uses.
  Those widths are 32-bit unsigned for the kind id, `unsigned long` for the
  command id (taken as 64 bits, as on LP64 platforms), 32-bit signed for the
  timeout and 64-bit signed for the start time.
- `Results` (`results.dfy`): `Option` and `Result`.

Everything is a pure function over immutable values. `build` of the request
builder takes its table as an input and returns only a request, so no call
can change a registered prototype.

## Model

| member | source | states |
|---|---|---|
| ExecuteQueries.NewExecuteQuery | src/commands/connector/execute_query.cc:25-33 | the new request is tagged with the execute-query kind id and keeps the command id, command, start time and timeout it was given |
| ExecuteQueries.Payload | src/commands/connector/execute_query.cc:62-68 | cutting the message (without ending) at each NUL gives the decimal kind id, command id, timeout and start time, in that order, followed by the pieces of the command |
| ExecuteQueries.HeaderFields | src/commands/connector/execute_query.cc:64-67 | there are four header fields, none empty; HeaderFieldsRead states that each reads back at its own width, in the order written |
| ExecuteQueries.Build | src/commands/connector/execute_query.cc:62-70 | cutting the built message at each NUL gives the four decimal header fields, in order, followed by the pieces of the command plus the ending |
| ExecuteQueries.HeaderNoNul | src/commands/connector/execute_query.cc:64-67 | no decimal header field contains a NUL, so the separators are exactly the ones written between them |
| ExecuteQueries.HeaderFieldsRead | src/commands/connector/execute_query.cc:64-67 | each of the four header fields reads back, at its own width, as the value it was written from |
| ExecuteQueries.BuildSplit | src/commands/connector/execute_query.cc:62-70 | the payload followed by any ending splits into the header fields followed by the split of the command plus ending |
| ExecuteQueries.JoinHeader | src/commands/connector/execute_query.cc:63-67 | the four numbers each followed by a NUL equal the header fields joined by NUL, then a NUL |
| ExecuteQueries.Restore | src/commands/connector/execute_query.cc:72-101 | "bad request argument" exactly when the data has fewer than four NULs. That error and "bad request id" leave the request unchanged. On success every header field read is the stored value and the command is field 4. The kind id never changes |
| ExecuteQueries.RestoreRejects | src/commands/connector/execute_query.cc:73-82 | fewer than five fields is refused as a bad argument with the request untouched. "Bad request id" happens exactly when there are at least five fields and field 0 does not read as this request's kind id |
| ExecuteQueries.RestoreCheckOrder | src/commands/connector/execute_query.cc:84-97 | the command id, timeout and start time are checked in that order and the first bad one names the error. A bad command id leaves 0 in it. A bad timeout keeps the new command id and leaves 0 in the timeout. A bad start time keeps both values read. Start time and command change only on success |
| ExecuteQueries.RestoreAccepts | src/commands/connector/execute_query.cc:84-100 | when field 0 is the kind id and fields 1 to 3 read, restore succeeds with exactly those values and field 4 as the command |
| ExecuteQueries.BuildFieldsRead | src/commands/connector/execute_query.cc:62-70 | a built message has at least five fields; fields 0 to 3 read back as the request's numbers and field 4 is the command plus ending up to the first NUL |
| ExecuteQueries.RestoreBuild | src/commands/connector/execute_query.cc:62-101 | restoring a built message into a request of the same kind succeeds and gives the built request with the command cut at the first NUL of command plus ending |
| ExecuteQueries.RestoreBuildRoundTrip | src/commands/connector/execute_query.cc:62-101 | for a command without NUL, restore of the payload, or of the payload with an empty or NUL-led ending, gives back the request that was built |
| ExecuteQueries.LeftOfCommand | src/commands/connector/execute_query.cc:100 | field 4 of such a message is the whole command |
| ExecuteQueries.Assign | src/commands/connector/execute_query.cc:46-56 | assignment as written keeps the destination's command id and copies every other field of the source |
| ExecuteQueries.AssignSelf | src/commands/connector/execute_query.cc:46-47 | self-assignment changes nothing |
| ExecuteQueries.CloneAsWritten | src/commands/connector/execute_query.cc:37-60 | the copy that `clone` makes as written holds the uninitialised command id and the original's other fields |
| ExecuteQueries.CloneAsWrittenLosesCmdId | src/commands/connector/execute_query.cc:46-60 | a request with command id 42 is cloned as written into a request that differs from it |
| ExecuteQueries.AssignFixed | src/commands/connector/execute_query.cc:46-56 | assignment with the command id copied makes the destination equal to the source |
| ExecuteQueries.Clone | src/commands/connector/execute_query.cc:58-60 | the corrected clone is equal to the original |
| ExecuteQueries.CloneCopies | src/commands/connector/execute_query.cc:37-60 | the corrected clone and assignment reproduce the source exactly, and on self-assignment they agree with the assignment as written |
| ExecuteQueries.WordLength | src/commands/connector/execute_query.cc:107-108 | a word at the start of a string is a non-empty run of non-space characters ending at a space or at the end |
| ExecuteQueries.Words | src/commands/connector/execute_query.cc:107-108 | the words of a command are non-empty and contain no white space; a non-empty text without white space is one word, and a text of white space only has none |
| ExecuteQueries.WordsSeparated | src/commands/connector/execute_query.cc:107-108 | a white-space character separates words: the words of `a`, a space, then `b` are the words of `a` followed by those of `b`, so no word spans white space; with the one-word and no-word cases this fixes the words of every command |
| ExecuteQueries.SeparatedAfterSpace | src/commands/connector/execute_query.cc:107-108 | the separation holds when the text before the separator starts with white space |
| ExecuteQueries.SeparatedAfterWord | src/commands/connector/execute_query.cc:107-108 | the separation holds when the text before the separator starts with a word |
| ExecuteQueries.SeparatedWordThenSpace | src/commands/connector/execute_query.cc:107-108 | the separation holds when a word and then white space precede the separator |
| ExecuteQueries.WholeWordThenSpace | src/commands/connector/execute_query.cc:107-108 | a single word before the separator is its own first word |
| ExecuteQueries.WordThenSpace | src/commands/connector/execute_query.cc:107-108 | a word followed by white space is the first word, and the rest gives the remaining words |
| ExecuteQueries.WordLengthIs | src/commands/connector/execute_query.cc:107-108 | the first word is exactly a non-empty space-free prefix ending at white space or at the end |
| ExecuteQueries.NoSpaceUpTo | src/commands/connector/execute_query.cc:107-108 | a space-free prefix has no white space at any of its positions |
| ExecuteQueries.WordsSpaceHead | src/commands/connector/execute_query.cc:107-108 | leading white space contributes no word |
| ExecuteQueries.WordsWordHead | src/commands/connector/execute_query.cc:107-108 | a leading word is the first of the words, and the words after it are those of the rest |
| ExecuteQueries.Simplified | src/commands/connector/execute_query.cc:108 | the simplified text is empty when the command is blank, and otherwise cutting it at each space gives back exactly the command's words |
| ExecuteQueries.WordsSpaceFree | src/commands/connector/execute_query.cc:108 | words hold no space, so splitting their space-joined text gives them back |
| ExecuteQueries.GetArgs | src/commands/connector/execute_query.cc:107-109 | there is always at least one argument; GetArgsWords with WordsSeparated states which |
| ExecuteQueries.GetArgsWords | src/commands/connector/execute_query.cc:107-109 | the arguments are the white-space separated words of the command; a blank command gives one empty argument |
| ExecuteQueries.WordsKeepText | src/commands/connector/execute_query.cc:107-109 | the words hold every non-space character of the command, in order, and nothing else |
| ExecuteQueries.SqueezeWord | src/commands/connector/execute_query.cc:107-108 | removing white space from a string that starts with a word keeps that word in front |
| RequestBuilder.Prototype | src/commands/connector/request_builder.cc:58-72 | the default request of each kind carries that kind's id |
| RequestBuilder.Register | src/commands/connector/request_builder.cc:59-60 | inserting a prototype adds exactly its id to the table's keys |
| RequestBuilder.RegisterAll | src/commands/connector/request_builder.cc:58-72 | no contract of its own: the constructor's six `_list.insert` calls in order; RegisterAllKeys, RegisterAllFrame and RegisterAllFiled state what the fold adds and keeps |
| RequestBuilder.RequestId | src/commands/connector/request_builder.cc:59-70 | no contract of its own: `get_id()`, the kind id a request carries; Prototype and PrototypeTableKinds state that every prototype carries its own kind's id |
| Requests.KindId | src/commands/connector/request_builder.cc:58-72 | every kind's id is below 6; KindIdInjective states that distinct kinds have distinct ids |
| RequestBuilder.Dispatch | src/commands/connector/request_builder.cc:37-72 | through the constructor's table, a tag that is not a number below 6 gives "bad request id", and a tag below 6 restores the prototype of the kind it names from the whole message |
| RequestBuilder.CloneRequest | src/commands/connector/request_builder.cc:53 | the copy of a prototype equals the prototype |
| RequestBuilder.RestoreRequest | src/commands/connector/request_builder.cc:54 | a restored request keeps the kind id of the request it was restored into; an execute request's outcome is exactly execute restore's error, or the query it restores, with the exception passed on; any other kind takes the message as its data |
| RequestBuilder.Tag | src/commands/connector/request_builder.cc:38-39 | the tag is the first NUL-separated field: a NUL-free prefix of the message, all of it when it has no NUL |
| RequestBuilder.Build | src/commands/connector/request_builder.cc:37-56 | a tag that does not read as an unsigned int, or that names no registered kind, gives "bad request id". A registered tag gives exactly what restoring the registered prototype from the whole message, tag included, gives: that request, or restore's error |
| RequestBuilder.BuildAsWritten | src/commands/connector/request_builder.cc:37-56 | with `clone` as written: the same refusals of an unreadable or unregistered tag, other kinds restored as registered, and any result carrying the kind id of the tag's prototype |
| RequestBuilder.RestoreKindPasses | src/commands/connector/request_builder.cc:53-54 | a message whose tag reads as the prototype's own kind id never fails restore's kind check |
| RequestBuilder.BadIdOnlyFromTag | src/commands/connector/request_builder.cc:41-51 | over a table keyed by each prototype's own id, "bad request id" comes exactly from an unreadable or unregistered tag |
| RequestBuilder.RestoreIgnoresPayload | src/commands/connector/request_builder.cc:53-54 | restoring into two execute requests of the same kind gives the same outcome, whatever their other fields held |
| RequestBuilder.RestoreErrorIgnoresPayload | src/commands/connector/execute_query.cc:72-101 | whether restore fails, and with which error, depends on the prototype only through its kind id |
| RequestBuilder.BuildAsWrittenAgrees | src/commands/connector/request_builder.cc:53-54 | with `clone` as written, whatever command id it leaves, `build` returns the same result as with the corrected clone |
| RequestBuilder.BuildTag | src/commands/connector/request_builder.cc:38-42 | the tag of a built execute query reads as its kind id |
| RequestBuilder.BuildRoundTrip | src/commands/connector/request_builder.cc:37-56 | over any table holding the execute prototype under its id, a built execute query with NUL-free command and an empty or NUL-led ending is rebuilt exactly |
| RequestBuilder.DispatchRoundTrip | src/commands/connector/request_builder.cc:37-72 | the same round trip through the constructor's table |
| RequestBuilder.PrototypeTable | src/commands/connector/request_builder.cc:58-72 | the constructor's table files the prototype of each kind it registers under that kind's id |
| RequestBuilder.RegisterAllFiles | src/commands/connector/request_builder.cc:58-72 | registering a list of kinds adds exactly their ids, files each kind's prototype under its id and leaves all other entries alone |
| RequestBuilder.RegisterAllKeys | src/commands/connector/request_builder.cc:58-72 | registering a list of kinds adds exactly their ids to the keys |
| RequestBuilder.RegisterAllFrame | src/commands/connector/request_builder.cc:58-72 | an entry under an id no registered kind has is kept |
| RequestBuilder.RegisterAllFiled | src/commands/connector/request_builder.cc:58-72 | every registered kind ends up with its own prototype under its id, since no other kind shares the id |
| RequestBuilder.EveryKindRegistered | src/commands/connector/request_builder.cc:58-72 | the constructor registers every one of the six kinds |
| RequestBuilder.KindIds | src/commands/connector/request_builder.cc:58-72 | the ids of a list of kinds include each listed kind's id; KindIdsMember gives the converse |
| RequestBuilder.KindIdsMember | src/commands/connector/request_builder.cc:58-72 | a kind's id is among the ids of a list exactly when the kind is in the list |
| RequestBuilder.KindIdsBelow | src/commands/connector/request_builder.cc:58-72 | every id of a list of kinds is below 6 |
| RequestBuilder.KindIdsCard | src/commands/connector/request_builder.cc:58-72 | distinct kinds have as many ids as there are kinds, so six registrations give six entries |
| Requests.KindOf | src/commands/connector/request_builder.cc:58-72 | every id below 6 is the id of some kind |
| RequestBuilder.EveryKindFiled | src/commands/connector/request_builder.cc:58-72 | every one of the six kinds finds its own prototype in the constructor's table |
| RequestBuilder.PrototypeTableKeys | src/commands/connector/request_builder.cc:58-72 | the constructor's table has no key other than the registered kinds' ids |
| RequestBuilder.PrototypeTableById | src/commands/connector/request_builder.cc:58-72 | the constructor's table has an entry exactly under each id below 6, the prototype of the kind that id names |
| RequestBuilder.OrderDistinct | src/commands/connector/request_builder.cc:58-72 | the constructor registers six kinds, none twice |
| RequestBuilder.KindTable | src/commands/connector/request_builder.cc:58-72 | a table keyed by the ids of distinct kinds, each filed with its own prototype, has one entry per kind and every entry under its own id |
| RequestBuilder.PrototypeTableKinds | src/commands/connector/request_builder.cc:58-72 | the constructor's table holds exactly six prototypes, one per kind, each under its own id |
| Requests.KindIdInjective | src/commands/connector/request_builder.cc:58-72 | distinct kinds have distinct ids, so no registration overwrites another kind |
| Fields.IndexOf | src/commands/connector/request_builder.cc:38 | the position of the first separator, or -1 exactly when there is none |
| Fields.Left | src/commands/connector/request_builder.cc:39 | the prefix before the first separator, or the whole string, which holds no separator |
| Fields.Split | src/commands/connector/execute_query.cc:73 | split gives at least one field, no field holds the separator, and the first field is the prefix before the first separator |
| Fields.SplitLength | src/commands/connector/execute_query.cc:73-74 | split gives exactly one field more than there are separators |
| Fields.JoinSplit | src/commands/connector/execute_query.cc:73 | joining the fields of a split gives the original string back |
| Fields.SplitJoin | src/commands/connector/execute_query.cc:73 | splitting separator-free fields joined by the separator gives the fields back |
| Fields.SplitAround | src/commands/connector/execute_query.cc:73 | splitting at one separator splits the two sides independently |
| Fields.SplitCons | src/commands/connector/execute_query.cc:73 | a separator-free field in front of a separator is the first field |
| Fields.SplitPrefix | src/commands/connector/execute_query.cc:73 | separator-free fields joined in front of a separator stay the leading fields |
| Fields.IndexOfAfter | src/commands/connector/request_builder.cc:38 | the first separator after a separator-free prefix is the one right after it |
| Fields.CountAppend | src/commands/connector/execute_query.cc:73-74 | separators of a concatenation add up |
| Fields.CountSeparated | src/commands/connector/execute_query.cc:73-74 | one separator after a separator-free prefix adds one to the count |
| Decimal.FormatNat | src/commands/connector/execute_query.cc:64-65 | the decimal form of a number is non-empty, all digits, and has no leading zero |
| Decimal.FormatInt | src/commands/connector/execute_query.cc:66-67 | a signed decimal form starts with '-' exactly when the number is negative, and the digits that follow have no leading zero, as `setNum` writes them |
| Decimal.FormatNatValue | src/commands/connector/execute_query.cc:64-65 | the digits written for a number have that number as their value |
| Decimal.ParseUnsigned | src/commands/connector/execute_query.cc:79-84 | `toUInt` / `toULong`: reads exactly the non-empty all-digit texts whose value is within the width's bound, giving that value |
| Decimal.ParseSigned | src/commands/connector/execute_query.cc:89-94 | `toInt` / `toLongLong`: a reading is within the width's bounds; the empty text does not read; a text without '-' reads as its digits' value and one with '-' as the negated value of the digits after it; conversely every digit text, or '-' and digits, whose value is within the bounds is read, leading zeros and "-0" included |
| Decimal.ParseFormatUnsigned | src/commands/connector/execute_query.cc:79-84 | reading back a written unsigned number within the width's bound gives the number |
| Decimal.ParseFormatSigned | src/commands/connector/execute_query.cc:89-94 | reading back a written signed number within the width's bounds gives the number |
| Decimal.FormatIntChars | src/commands/connector/execute_query.cc:64-67 | a written number holds no character other than digits and '-' (in particular no NUL) |
| HostsMembers.Release | src/objects/hostsmember.cc:51-59 | NULL gives NULL and frees nothing. Otherwise the result is the record's successor and exactly that record is freed; no other record changes |
| HostsMembers.ReleaseHostsMember | src/objects/hostsmember.cc:31-42 | the wrapper returns what `release` returns, or NULL when an exception was caught |
| HostsMembers.ReleaseHostsMemberInChain | src/objects/hostsmember.cc:31-42 | the wrapper returns NULL or the second address of the chain |
| HostsMembers.ReleaseStep | src/objects/hostsmember.cc:51-59 | one release at the head of a NULL-terminated chain leaves the rest of the chain intact, starting at the address returned |
| HostsMembers.ReleaseAll | src/objects/hostsmember.cc:51-59 | releasing repeatedly from the head reaches NULL after as many steps as the chain is long. It frees exactly the chain's records and leaves all others as they were |
| HostsMembers.ChainUnique | src/objects/hostsmember.cc:55 | following `next` from an address determines the chain |
| HostsMembers.ChainSuffix | src/objects/hostsmember.cc:55 | every suffix of a chain is the chain of its first address |
| HostsMembers.ChainHeadNotInTail | src/objects/hostsmember.cc:55 | a NULL-terminated chain has no cycle through its head |
| HostsMembers.ChainFrame | src/objects/hostsmember.cc:56-57 | freeing a record outside a chain leaves the chain intact |
| HostRecovery.NotifyRecovery | tests/notifications/host_recovery_notification.cc:100-184 | the call returns OK. The next notification id rises by one exactly when the host is up in a hard state and the recovery delay has run out since the last hard change; otherwise nothing changes |
| HostRecovery.RecoveryWithDownState | tests/notifications/host_recovery_notification.cc:100-113 | a host still hard down five minutes later gets OK and no new notification id |
| HostRecovery.RecoveryWithHardUpState | tests/notifications/host_recovery_notification.cc:119-135 | a host hard up since the fixture time with no delay gets OK and exactly one new notification id |
| HostRecovery.RecoveryWithSoftUpState | tests/notifications/host_recovery_notification.cc:141-156 | a soft up host gets OK and no new notification id |
| HostRecovery.RecoveryWithinDelay | tests/notifications/host_recovery_notification.cc:165-184 | a hard up host with a 600 second delay, asked after 300 seconds, gets OK and no new notification id |
| HostRecovery.RecoveryMonotoneInTime | tests/notifications/host_recovery_notification.cc:165-184 | a recovery due at one time is due at every later time, and one refused for its state is refused at every time |
| HostRecovery.RecoveryDelayBoundary | tests/notifications/host_recovery_notification.cc:171-183 | a hard up host is notified at the instant its delay runs out and not one second before |
| ExternalCommands.ParseCommandLine | test/modules/external_commands/enable_hostgroup_passive_svc_checks.cc:70 | a line not starting with '[' is malformed; a read line's time fits 64 bits and its verb and arguments hold no ';' |
| ExternalCommands.ParseFormatCommandLine | test/modules/external_commands/enable_hostgroup_passive_svc_checks.cc:70 | a written command line whose verb and arguments hold no ';' and whose time fits reads back as the same command |
| ExternalCommands.CommandLineShape | test/modules/external_commands/enable_hostgroup_passive_svc_checks.cc:70 | a written line is "[", the decimal time, "] " and the verb and arguments joined by ';' |
| ExternalCommands.ParseCommandLineOf | test/modules/external_commands/enable_hostgroup_passive_svc_checks.cc:70 | a line with a bracketed readable time followed by a space is read as that time and the ';'-fields after it |
| ExternalCommands.TestLineParses | test/modules/external_commands/enable_hostgroup_passive_svc_checks.cc:70 | the test's line reads as the ENABLE_HOSTGROUP_PASSIVE_SVC_CHECKS command at time 1317196300 with the group as its one argument |
| ExternalCommands.VerbHasNoSemicolon | test/modules/external_commands/enable_hostgroup_passive_svc_checks.cc:70 | the verb holds no ';' |
| ExternalCommands.EnableServices | test/modules/external_commands/enable_hostgroup_passive_svc_checks.cc:64-69 | exactly the registered services linked from the host accept passive checks afterwards; the others are unchanged |
| ExternalCommands.EnableMembers | test/modules/external_commands/enable_hostgroup_passive_svc_checks.cc:59-69 | exactly the services reached through a registered member host accept passive checks afterwards; the others are unchanged |
| ExternalCommands.EnableHostgroupPassiveSvcChecks | test/modules/external_commands/enable_hostgroup_passive_svc_checks.cc:55-74 | an unknown group is refused with nothing changed. Otherwise a service accepts passive checks afterwards exactly when it did before or is reached from the group; hosts and groups are unchanged |
| ExternalCommands.ProcessExternalCommand | test/modules/external_commands/enable_hostgroup_passive_svc_checks.cc:70-71 | an unreadable line is refused with its reading error, another verb as unknown, and the enable verb with other than one argument as a bad argument count; a readable enable line with one argument runs the handler on that group. A refused command changes nothing; hosts and groups never change |
| ExternalCommands.EnableIdempotent | test/modules/external_commands/enable_hostgroup_passive_svc_checks.cc:69-74 | running the command a second time changes nothing |
| ExternalCommands.EnableMembersOrderFree | test/modules/external_commands/enable_hostgroup_passive_svc_checks.cc:59-62 | the effect depends on which hosts the group holds, not on their order or repetition |
| ExternalCommands.ReachesByMembership | test/modules/external_commands/enable_hostgroup_passive_svc_checks.cc:59-62 | member lists with the same names reach the same services |
| ExternalCommands.EnableHostgroupScenario | test/modules/external_commands/enable_hostgroup_passive_svc_checks.cc:36-74 | in the test's registry, the test's line is accepted and the service then accepts passive checks |
| ExternalCommands.UnknownGroupScenario | test/modules/external_commands/enable_hostgroup_passive_svc_checks.cc:55-71 | naming a group that is not registered is refused and leaves the registry unchanged |

## Left out

- Qt types are replaced by their content. `QByteArray` and `QString` become `string`, `QDateTime` becomes milliseconds since the epoch, and `QSharedPointer` and `QHash` become values and maps.
- Decimal.ParseUnsigned: reads only digit strings, leading zeros allowed, with no sign, and Decimal.ParseSigned additionally an optional '-'. Qt's readers also accept surrounding white space and a '+' sign; that tolerance is not modelled.
- ExecuteQueries.Build: the message ending `cmd_ending()` is defined outside the files modelled, so it is a parameter. The round trip is proved for an ending that is empty or starts with a NUL.
- ExecuteQueries.Build: the command is a `QString` that `query += _cmd` turns into bytes with `toAscii()`, and `restore` turns field 4 back with `fromAscii()`. Characters outside Latin-1 do not survive this. The model treats the command as the same characters on both sides.
- ExecuteQueries.RestoreBuildRoundTrip: holds for every NUL-free command in the model, but in the engine only for commands whose characters all survive the `toAscii()` / `fromAscii()` conversion, and only for start times inside `QDateTime`'s date range, since the start time passes through a `QDateTime`. The same limits apply to RequestBuilder.DispatchRoundTrip and RequestBuilder.BuildRoundTrip.
- ExecuteQueries.ExecuteQuery: the command id is `unsigned long`, whose width depends on the platform. The model takes 64 bits, as on LP64 platforms; on a platform with a 32-bit `unsigned long` larger ids would wrap when stored and fail to read.
- ExecuteQueries.Simplified: white space is the six ASCII white-space characters. Unicode white space that Qt's `simplified()` also removes is not modelled.
- The accessors `get_command`, `get_start_time`, `get_command_id` and `get_timeout` are the fields of the `ExecuteQuery` datatype and need no separate member.
- The other five request kinds (version and quit queries and responses, execute response) are defined outside the files modelled. Only their kind and the message they were restored from are kept, and their `restore` is taken to succeed.
- The numeric kind ids come from a header that is not part of this model. They are taken as 0 to 5 in the order the constructor registers the kinds; only their distinctness is used.
- The `qDebug` trace in `request_builder::build` is logging, and the singleton `instance()` is global state.
- HostsMembers.ReleaseHostsMember: whether `release` throws is a parameter, since nothing in `release` itself throws. The error logging of the wrapper is not modelled.
- HostRecovery.NotifyRecovery: the notifier's implementation is not part of this model. The decision is reconstructed from the four recovery tests. The other filters of the notifier (notifications enabled, acknowledgement, notification period, notified states) are taken as passing, as they do in those tests. The tests do not pin what happens exactly at the end of the delay; the model sends the recovery once the elapsed time reaches the delay. The gate assumes a problem notification was sent earlier, as the tests' fixture sends one before each test; it does not track that, so it does not stop a second recovery: calling it again on its own result sends another.
- ExternalCommands.ProcessExternalCommand: the engine's external command processor is not part of this model. Only the ENABLE_HOSTGROUP_PASSIVE_SVC_CHECKS verb is handled; any other verb is refused as unknown, and a wrong number of arguments is refused. The line format is the one the test's command line uses. The error kinds (Malformed, UnknownVerb, BadArgCount, UnknownTarget) are this model's own choice: the engine's processor reports no result the test looks at.
- ExternalCommands.EnableMembers: member links are resolved by host name and service key through the registry rather than by the pointers the engine stores; a link naming nothing registered is skipped.
- The test plumbing is left out: configuration loading, the time zone manager, time-period setup, host escalation objects and the `delete[]` clean-up in the tests.
- The broker module loader, the hostgroup and service escalation headers and the macro tests are declarations or text rendering outside the core and are not part of this model.

## Findings

| source | as written | input that shows it | evidently intended | confidence | as-written member | corrected member |
|---|---|---|---|---|---|---|
| src/commands/connector/execute_query.cc:46-60 | `operator=` copies `_id` a second time (line 52) instead of `_cmd_id`, and the copy constructor relies on it, so `clone` leaves the copy's command id uninitialised | `clone()` of `execute_query(42, "check_ping", t, 5)`: the copy's command id is whatever the new object's memory held, not necessarily 42 | assignment and copy carry the command id, so a clone equals its original | not executed | ExecuteQueries.CloneAsWritten, ExecuteQueries.CloneAsWrittenLosesCmdId | ExecuteQueries.Clone, ExecuteQueries.CloneCopies |

The request builder restores every clone before returning it. `restore` overwrites the command id before reading anything else, and a failed `restore` returns no request. So through `request_builder::build` the defect is never visible: RequestBuilder.BuildAsWrittenAgrees proves that `build` gives the same result with either clone.

=== FILE: decimal.dfy ===
/** Decimal text for integers, as the connector writes it (`setNum`) and reads
    it back (`toUInt`, `toULong`, `toInt`, `toLongLong`). A parse fails, as the
    engine's `ok == false`, on an empty field, a non-digit, or a value outside
    the target width. */
module Decimal {
  import opened Results

  const UInt32Max: int := 0xFFFF_FFFF
  const UInt64Max: int := 0xFFFF_FFFF_FFFF_FFFF
  const Int32Min: int := -0x8000_0000
  const Int32Max: int := 0x7FFF_FFFF
  const Int64Min: int := -0x8000_0000_0000_0000
  const Int64Max: int := 0x7FFF_FFFF_FFFF_FFFF

  type UInt32 = x: int | 0 <= x <= UInt32Max
  type UInt64 = x: int | 0 <= x <= UInt64Max
  type Int32 = x: int | Int32Min <= x <= Int32Max
  type Int64 = x: int | Int64Min <= x <= Int64Max

  predicate IsDigit(c: char)
  {
    '0' <= c <= '9'
  }

  predicate AllDigits(s: string)
  {
    forall i :: 0 <= i < |s| ==> IsDigit(s[i])
  }

  function DigitChar(d: nat): (c: char)
    requires d < 10
    ensures IsDigit(c)
  {
    (('0' as int) + d) as char
  }

  /** Value of a digit string read most significant digit first. */
  function DigitsValue(s: string): nat
    requires AllDigits(s)
  {
    if |s| == 0 then 0
    else DigitsValue(s[..|s| - 1]) * 10 + ((s[|s| - 1] as int) - ('0' as int))
  }

  /** `setNum` of a non-negative number: its digits, without leading zeros. */
  function FormatNat(n: nat): (s: string)
    ensures |s| >= 1 && AllDigits(s)
    ensures |s| > 1 ==> s[0] != '0'
    decreases n
  {
    if n < 10 then [DigitChar(n)] else FormatNat(n / 10) + [DigitChar(n % 10)]
  }

  /** `setNum` of a signed number: a '-' in front of the digits of a negative one. */
  function FormatInt(i: int): (s: string)
    ensures |s| >= 1
    ensures i < 0 <==> s[0] == '-'
    ensures i >= 0 && |s| > 1 ==> s[0] != '0'
    ensures i < 0 ==> |s| >= 2 && s[1] != '0'
  {
    if i < 0 then "-" + FormatNat(-i) else FormatNat(i)
  }

  /** Reading an unsigned field of width `max`. */
  function ParseUnsigned(s: string, max: nat): (r: Option<nat>)
    ensures r.Some? <==> |s| >= 1 && AllDigits(s) && DigitsValue(s) <= max
    ensures r.Some? ==> r.value == DigitsValue(s)
  {
    if |s| >= 1 && AllDigits(s) && DigitsValue(s) <= max then Some(DigitsValue(s)) else None
  }

  /** Reading a signed field whose range is [min, max]: an optional '-'
      followed by at least one digit. */
  function ParseSigned(s: string, min: int, max: int): (r: Option<int>)
    ensures r.Some? ==> min <= r.value <= max
    ensures |s| == 0 ==> r.None?
    ensures r.Some? && s[0] != '-' ==> AllDigits(s) && r.value == DigitsValue(s)
    ensures r.Some? && s[0] == '-' ==> |s| >= 2 && AllDigits(s[1..]) && r.value == -(DigitsValue(s[1..]) as int)
    ensures |s| >= 1 && AllDigits(s) && min <= DigitsValue(s) <= max ==> r == Some(DigitsValue(s))
    ensures |s| >= 2 && s[0] == '-' && AllDigits(s[1..]) && min <= -(DigitsValue(s[1..]) as int) <= max ==>
              r == Some(-(DigitsValue(s[1..]) as int))
  {
    if |s| >= 1 && s[0] == '-' then
      var digits := s[1..];
      if |digits| >= 1 && AllDigits(digits) then
        var v: int := -(DigitsValue(digits) as int);
        if min <= v <= max then Some(v) else None
      else None
    else if |s| >= 1 && AllDigits(s) && min <= DigitsValue(s) <= max then Some(DigitsValue(s))
    else None
  }

  /** The digits written for `n` read back as `n`. */
  lemma {:induction false} FormatNatValue(n: nat)
    ensures DigitsValue(FormatNat(n)) == n
    decreases n
  {
    var s := FormatNat(n);
    if n >= 10 {
      FormatNatValue(n / 10);
      assert s[..|s| - 1] == FormatNat(n / 10);
    }
  }

  /** An unsigned number within the width reads back unchanged. */
  lemma ParseFormatUnsigned(n: nat, max: nat)
    requires n <= max
    ensures ParseUnsigned(FormatNat(n), max) == Some(n)
  {
    FormatNatValue(n);
  }

  /** A signed number within the range reads back unchanged. */
  lemma ParseFormatSigned(i: int, min: int, max: int)
    requires min <= i <= max
    ensures ParseSigned(FormatInt(i), min, max) == Some(i)
  {
    var s := FormatInt(i);
    if i < 0 {
      FormatNatValue(-i);
      assert s[1..] == FormatNat(-i);
      assert s[0] == '-';
    } else {
      FormatNatValue(i);
      assert s == FormatNat(i);
      assert IsDigit(s[0]);
    }
  }

  /** A written number holds no character other than digits and a leading '-'. */
  lemma FormatIntChars(i: int, c: char)
    requires c != '-' && !IsDigit(c)
    ensures c !in FormatInt(i)
  {
    if i < 0 {
      assert FormatInt(i) == "-" + FormatNat(-i);
    }
  }
}

=== FILE: execute_query.dfy ===
/** The connector's execute request: the engine asks a connector to run the
    check command `cmd`, identified by `cmdId`, started at `startMs`
    milliseconds since the epoch, with `timeout` seconds to complete.

    On the wire it is five NUL-separated fields: the kind id, the command id,
    the timeout, the start time and the command, followed by the message
    ending. */
module ExecuteQueries {
  import opened Results
  import opened Fields
  import opened Decimal
  import opened Requests

  const Nul: char := '\0'

  /** `id` is the kind id held by the request base class; the other fields
      are the request's own, at the widths the engine declares them. */
  datatype ExecuteQuery = ExecuteQuery(
    id: UInt32,
    cmdId: UInt64,
    cmd: string,
    startMs: Int64,
    timeout: Int32)

  /** The state of a request after `restore`, and the error it threw, if any.
      `restore` writes some fields before it throws, so a failed restore can
      leave the request changed. */
  datatype Restored = Restored(query: ExecuteQuery, error: Option<ConnectorError>)

  /** The constructor: tags the request as an execute request and keeps its
      arguments as given. */
  function NewExecuteQuery(cmdId: UInt64, cmd: string, startMs: Int64, timeout: Int32): (q: ExecuteQuery)
    ensures q.id == KindId(ExecuteQ)
    ensures q.cmdId == cmdId && q.cmd == cmd && q.startMs == startMs && q.timeout == timeout
  {
    ExecuteQuery(KindId(ExecuteQ), cmdId, cmd, startMs, timeout)
  }

  /** The four numeric fields in the order they are written. */
  function HeaderFields(q: ExecuteQuery): (fs: seq<string>)
    ensures |fs| == 4
    ensures forall i :: 0 <= i < 4 ==> |fs[i]| >= 1
  {
    [FormatNat(q.id), FormatNat(q.cmdId), FormatInt(q.timeout), FormatInt(q.startMs)]
  }

  /** The message without its ending: the four numbers, each followed by a
      NUL, then the command. */
  function Payload(q: ExecuteQuery): (data: string)
    ensures Split(data, Nul) == HeaderFields(q) + Split(q.cmd, Nul)
  {
    var data := FormatNat(q.id) + [Nul] + (FormatNat(q.cmdId) + [Nul]
      + (FormatInt(q.timeout) + [Nul] + (FormatInt(q.startMs) + [Nul] + q.cmd)));
    HeaderNoNul(q);
    JoinHeader(q, q.cmd);
    SplitPrefix(HeaderFields(q), q.cmd, Nul);
    data
  }

  /** `build`: the payload followed by the message ending. The ending's
      definition is not part of this model, so it is a parameter. */
  function Build(q: ExecuteQuery, ending: string): (data: string)
    ensures Split(data, Nul) == HeaderFields(q) + Split(q.cmd + ending, Nul)
  {
    BuildSplit(q, ending);
    Payload(q) + ending
  }

  /** `restore`: refills the request from the fields of `data`. Field 0 must
      be this request's own kind id; fields 1 to 3 must read as the command
      id, timeout and start time, checked in that order; field 4 becomes the
      command and any further fields are ignored. The command id and the
      timeout are written before they are checked (a failed read writes 0). */
  function Restore(q: ExecuteQuery, data: string): (r: Restored)
    ensures r.query.id == q.id
    ensures r.error == Some(BadRequestArgument) <==> Count(data, Nul) < 4
    ensures r.error == Some(BadRequestArgument) || r.error == Some(BadRequestId) ==> r.query == q
    ensures r.error.None? ==>
              var fields := Split(data, Nul);
              && |fields| >= 5
              && ParseUnsigned(fields[0], UInt32Max) == Some(q.id as nat)
              && ParseUnsigned(fields[1], UInt64Max) == Some(r.query.cmdId as nat)
              && ParseSigned(fields[2], Int32Min, Int32Max) == Some(r.query.timeout as int)
              && ParseSigned(fields[3], Int64Min, Int64Max) == Some(r.query.startMs as int)
              && r.query.cmd == fields[4]
  {
    var fields := Split(data, Nul);
    SplitLength(data, Nul);
    if |fields| < 5 then Restored(q, Some(BadRequestArgument))
    else
      var id := ParseUnsigned(fields[0], UInt32Max);
      if id.None? || id.value != q.id then Restored(q, Some(BadRequestId))
      else
        var cmdId := ParseUnsigned(fields[1], UInt64Max);
        var q1 := q.(cmdId := if cmdId.Some? then cmdId.value else 0);
        if cmdId.None? then Restored(q1, Some(InvalidCmdId))
        else
          var timeout := ParseSigned(fields[2], Int32Min, Int32Max);
          var q2 := q1.(timeout := if timeout.Some? then timeout.value else 0);
          if timeout.None? then Restored(q2, Some(InvalidTimeout))
          else
            var startMs := ParseSigned(fields[3], Int64Min, Int64Max);
            if startMs.None? then Restored(q2, Some(InvalidStartTime))
            else Restored(q2.(startMs := startMs.value, cmd := fields[4]), None)
  }

  /** `operator=` as written: copies the base part, the command, the start
      time, the kind id (a second time) and the timeout, but not the command
      id, which keeps the destination's value. */
  function Assign(dst: ExecuteQuery, src: ExecuteQuery): (r: ExecuteQuery)
    ensures r.cmdId == dst.cmdId
    ensures r.(cmdId := src.cmdId) == src
  {
    dst.(cmd := src.cmd, startMs := src.startMs, id := src.id, timeout := src.timeout)
  }

  /** `clone` as written: the copy constructor copies the base part and then
      assigns, so the command id is whatever the new object's uninitialised
      member held, given here as `junk`. */
  function CloneAsWritten(q: ExecuteQuery, junk: UInt64): (r: ExecuteQuery)
    ensures r.cmdId == junk
    ensures r.(cmdId := q.cmdId) == q
  {
    var blank := ExecuteQuery(q.id, junk, "", 0, 0);
    Assign(blank, q)
  }

  /** `operator=` with the command id copied as well. */
  function AssignFixed(dst: ExecuteQuery, src: ExecuteQuery): (r: ExecuteQuery)
    ensures r == src
  {
    Assign(dst, src).(cmdId := src.cmdId)
  }

  /** `clone` built on the corrected assignment: an exact copy. */
  function Clone(q: ExecuteQuery): (r: ExecuteQuery)
    ensures r == q
  {
    AssignFixed(ExecuteQuery(q.id, 0, "", 0, 0), q)
  }

  // ---------------------------------------------------------------------------
  // get_args: the command with runs of white space collapsed, cut at spaces.

  /** ASCII white space; the engine's string type also counts other Unicode
      spaces. */
  predicate IsSpace(c: char)
  {
    c == ' ' || c == '\t' || c == '\n' || c == '\r' || c == '\U{000B}' || c == '\U{000C}'
  }

  predicate NoSpace(s: string)
  {
    forall i :: 0 <= i < |s| ==> !IsSpace(s[i])
  }

  /** Length of the word at the start of `s`. */
  function WordLength(s: string): (n: nat)
    requires |s| > 0 && !IsSpace(s[0])
    ensures 1 <= n <= |s|
    ensures NoSpace(s[..n])
    ensures n < |s| ==> IsSpace(s[n])
    decreases |s|
  {
    if |s| == 1 || IsSpace(s[1]) then 1
    else
      var n := 1 + WordLength(s[1..]);
      assert s[..n] == [s[0]] + s[1..][..n - 1];
      n
  }

  /** The maximal runs of non-space characters of `s`, in order. */
  function Words(s: string): (ws: seq<string>)
    ensures forall i :: 0 <= i < |ws| ==> |ws[i]| >= 1 && NoSpace(ws[i])
    ensures |s| > 0 && NoSpace(s) ==> ws == [s]
    ensures (forall i :: 0 <= i < |s| ==> IsSpace(s[i])) ==> ws == []
    decreases |s|
  {
    if |s| == 0 then []
    else if IsSpace(s[0]) then
      assert forall i :: 0 <= i < |s[1..]| ==> s[1..][i] == s[i + 1];
      Words(s[1..])
    else
      var n := WordLength(s);
      assert NoSpace(s) ==> n == |s| && s[..n] == s;
      [s[..n]] + Words(s[n..])
  }

  /** `simplified()`: white space trimmed at both ends, and every inner run
      of it replaced by one space. */
  function Simplified(s: string): (r: string)
    ensures Words(s) == [] ==> r == []
    ensures Words(s) != [] ==> Split(r, ' ') == Words(s)
  {
    WordsSpaceFree(s);
    Join(Words(s), ' ')
  }

  /** `get_args`: the simplified command cut at each space. */
  function GetArgs(q: ExecuteQuery): (args: seq<string>)
    ensures |args| >= 1
  {
    Split(Simplified(q.cmd), ' ')
  }

  /** `s` with its white space removed. */
  function Squeeze(s: string): string
  {
    if |s| == 0 then []
    else if IsSpace(s[0]) then Squeeze(s[1..])
    else [s[0]] + Squeeze(s[1..])
  }

  /** The concatenation of `ws`. */
  function Concat(ws: seq<string>): string
  {
    if |ws| == 0 then [] else ws[0] + Concat(ws[1..])
  }

  // ---------------------------------------------------------------------------
  // Proofs

  lemma HeaderNoNul(q: ExecuteQuery)
    ensures SeparatorFree(HeaderFields(q), Nul)
  {
    FormatIntChars(q.id, Nul);
    FormatIntChars(q.cmdId, Nul);
    FormatIntChars(q.timeout, Nul);
    FormatIntChars(q.startMs, Nul);
  }

  lemma BuildSplit(q: ExecuteQuery, ending: string)
    ensures Split(Payload(q) + ending, Nul) == HeaderFields(q) + Split(q.cmd + ending, Nul)
  {
    var h := HeaderFields(q);
    HeaderNoNul(q);
    var a, b, c, d := FormatNat(q.id), FormatNat(q.cmdId), FormatInt(q.timeout), FormatInt(q.startMs);
    var tail := q.cmd + ending;
    calc {
      Payload(q) + ending;
      (a + [Nul] + (b + [Nul] + (c + [Nul] + (d + [Nul] + q.cmd)))) + ending;
      { SeqAssoc4(a + [Nul], b + [Nul], c + [Nul], d + [Nul], q.cmd, ending); }
      a + [Nul] + (b + [Nul] + (c + [Nul] + (d + [Nul] + tail)));
      { JoinHeader(q, tail); }
      Join(h, Nul) + [Nul] + tail;
    }
    SplitPrefix(h, tail, Nul);
  }

  lemma SeqAssoc4(a: string, b: string, c: string, d: string, x: string, y: string)
    ensures (a + (b + (c + (d + x)))) + y == a + (b + (c + (d + (x + y))))
  {
  }

  /** The four header fields joined are the numbers written with a NUL after
      each but the last. */
  lemma JoinHeader(q: ExecuteQuery, rest: string)
    ensures FormatNat(q.id) + [Nul] + (FormatNat(q.cmdId) + [Nul]
              + (FormatInt(q.timeout) + [Nul] + (FormatInt(q.startMs) + [Nul] + rest)))
            == Join(HeaderFields(q), Nul) + [Nul] + rest
  {
    var h := HeaderFields(q);
    assert h[1..][1..][1..] == [h[3]];
    assert Join(h[1..][1..], Nul) == h[2] + [Nul] + h[3];
    assert Join(h[1..], Nul) == h[1] + [Nul] + (h[2] + [Nul] + h[3]);
    assert Join(h, Nul) == h[0] + [Nul] + (h[1] + [Nul] + (h[2] + [Nul] + h[3]));
  }

  // ---------------------------------------------------------------------------
  // Properties of the wire form

  /** `restore` reads back what `build` wrote: the numeric fields exactly, and
      as command the text up to the first NUL of the command followed by the
      ending (field 4; later fields are dropped). The request restored into
      must be of the same kind. */
  lemma RestoreBuild(p: ExecuteQuery, q: ExecuteQuery, ending: string)
    requires p.id == q.id
    ensures Restore(p, Build(q, ending)) == Restored(q.(cmd := Left(q.cmd + ending, Nul)), None)
  {
    var data := Build(q, ending);
    BuildFieldsRead(q, ending);
    RestoreAccepts(p, data, q.cmdId, q.timeout, q.startMs);
  }

  /** Each field `build` writes reads back as the value it was written from. */
  lemma BuildFieldsRead(q: ExecuteQuery, ending: string)
    ensures var f := Split(Build(q, ending), Nul);
      && |f| >= 5
      && ParseUnsigned(f[0], UInt32Max) == Some(q.id as nat)
      && ParseUnsigned(f[1], UInt64Max) == Some(q.cmdId as nat)
      && ParseSigned(f[2], Int32Min, Int32Max) == Some(q.timeout as int)
      && ParseSigned(f[3], Int64Min, Int64Max) == Some(q.startMs as int)
      && f[4] == Left(q.cmd + ending, Nul)
  {
    var tail := Split(q.cmd + ending, Nul);
    var fields := HeaderFields(q) + tail;
    assert Split(Build(q, ending), Nul) == fields;
    HeaderFieldsRead(q);
    assert fields[4] == tail[0];
  }

  /** The four numbers of the header read back as written. */
  lemma HeaderFieldsRead(q: ExecuteQuery)
    ensures ParseUnsigned(HeaderFields(q)[0], UInt32Max) == Some(q.id as nat)
    ensures ParseUnsigned(HeaderFields(q)[1], UInt64Max) == Some(q.cmdId as nat)
    ensures ParseSigned(HeaderFields(q)[2], Int32Min, Int32Max) == Some(q.timeout as int)
    ensures ParseSigned(HeaderFields(q)[3], Int64Min, Int64Max) == Some(q.startMs as int)
  {
    ParseFormatUnsigned(q.id, UInt32Max);
    ParseFormatUnsigned(q.cmdId, UInt64Max);
    ParseFormatSigned(q.timeout, Int32Min, Int32Max);
    ParseFormatSigned(q.startMs, Int64Min, Int64Max);
  }

  /** When all five fields read, `restore` takes each of them. */
  lemma RestoreAccepts(p: ExecuteQuery, data: string, cmdId: UInt64, timeout: Int32, startMs: Int64)
    requires |Split(data, Nul)| >= 5
    requires ParseUnsigned(Split(data, Nul)[0], UInt32Max) == Some(p.id as nat)
    requires ParseUnsigned(Split(data, Nul)[1], UInt64Max) == Some(cmdId as nat)
    requires ParseSigned(Split(data, Nul)[2], Int32Min, Int32Max) == Some(timeout as int)
    requires ParseSigned(Split(data, Nul)[3], Int64Min, Int64Max) == Some(startMs as int)
    ensures Restore(p, data) == Restored(ExecuteQuery(p.id, cmdId, Split(data, Nul)[4], startMs, timeout), None)
  {
  }

  /** Round trip: a command free of NUL comes back unchanged when the ending
      is empty or starts with a NUL (as the payload alone, or a payload with a
      NUL-led ending, does). */
  lemma RestoreBuildRoundTrip(p: ExecuteQuery, q: ExecuteQuery, ending: string)
    requires p.id == q.id
    requires Nul !in q.cmd
    requires ending == [] || ending[0] == Nul
    ensures Restore(p, Build(q, ending)) == Restored(q, None)
    ensures Restore(p, Payload(q)) == Restored(q, None)
  {
    RestoreBuild(p, q, ending);
    RestoreBuild(p, q, []);
    assert Build(q, []) == Payload(q);
    LeftOfCommand(q.cmd, ending);
    LeftOfCommand(q.cmd, []);
  }

  lemma LeftOfCommand(cmd: string, ending: string)
    requires Nul !in cmd
    requires ending == [] || ending[0] == Nul
    ensures Left(cmd + ending, Nul) == cmd
  {
    if ending == [] {
      assert cmd + ending == cmd;
    } else {
      assert cmd + ending == cmd + [Nul] + ending[1..];
      IndexOfAfter(cmd, Nul, ending[1..]);
      assert (cmd + ending)[..|cmd|] == cmd;
    }
  }

  /** `restore` refuses data with fewer than five fields, leaving the request
      untouched, and refuses a first field that is not this request's kind id. */
  lemma RestoreRejects(q: ExecuteQuery, data: string)
    ensures |Split(data, Nul)| < 5 ==> Restore(q, data) == Restored(q, Some(BadRequestArgument))
    ensures (|Split(data, Nul)| >= 5 && ParseUnsigned(Split(data, Nul)[0], UInt32Max) != Some(q.id as nat))
              ==> Restore(q, data) == Restored(q, Some(BadRequestId))
    ensures Restore(q, data).error == Some(BadRequestId) <==>
              |Split(data, Nul)| >= 5 && ParseUnsigned(Split(data, Nul)[0], UInt32Max) != Some(q.id as nat)
  {
  }

  /** The numeric fields are checked in order, and each failure reports the
      first bad field. A failure at the command id writes 0 to it; a failure
      at the timeout keeps the new command id and writes 0 to the timeout; a
      failure at the start time keeps both; the start time and the command
      change only on success. */
  lemma RestoreCheckOrder(q: ExecuteQuery, data: string)
    requires |Split(data, Nul)| >= 5
    requires ParseUnsigned(Split(data, Nul)[0], UInt32Max) == Some(q.id as nat)
    ensures var f := Split(data, Nul);
      var r := Restore(q, data);
      && (ParseUnsigned(f[1], UInt64Max).None? ==>
            r == Restored(q.(cmdId := 0), Some(InvalidCmdId)))
      && (ParseUnsigned(f[1], UInt64Max).Some? && ParseSigned(f[2], Int32Min, Int32Max).None? ==>
            r.error == Some(InvalidTimeout) && r.query.cmdId == ParseUnsigned(f[1], UInt64Max).value
            && r.query.timeout == 0 && r.query.cmd == q.cmd && r.query.startMs == q.startMs)
      && (ParseUnsigned(f[1], UInt64Max).Some? && ParseSigned(f[2], Int32Min, Int32Max).Some?
            && ParseSigned(f[3], Int64Min, Int64Max).None? ==>
            r.error == Some(InvalidStartTime) && r.query.cmd == q.cmd && r.query.startMs == q.startMs
            && r.query.cmdId == ParseUnsigned(f[1], UInt64Max).value
            && r.query.timeout == ParseSigned(f[2], Int32Min, Int32Max).value)
  {
  }

  /** Self-assignment changes nothing. */
  lemma AssignSelf(q: ExecuteQuery)
    ensures Assign(q, q) == q
  {
  }

  /** The copy made by `clone` as written can differ from the original in its
      command id: with the uninitialised member holding 0, a request with
      command id 42 is cloned with command id 0. */
  lemma CloneAsWrittenLosesCmdId()
    ensures var q := NewExecuteQuery(42, "check_ping", 0, 5);
            CloneAsWritten(q, 0) != q
  {
  }

  /** With the corrected assignment, `clone` is an exact copy, and assigning
      a request to itself or to any other request reproduces it. */
  lemma CloneCopies(dst: ExecuteQuery, q: ExecuteQuery)
    ensures Clone(q) == q
    ensures AssignFixed(dst, q) == q
    ensures AssignFixed(q, q) == Assign(q, q)
  {
  }

  // ---------------------------------------------------------------------------
  // Properties of get_args

  /** The arguments are the words of the command; a blank command gives one
      empty argument. */
  lemma GetArgsWords(q: ExecuteQuery)
    ensures Words(q.cmd) != [] ==> GetArgs(q) == Words(q.cmd)
    ensures Words(q.cmd) == [] ==> GetArgs(q) == [""]
  {
  }

  /** A white-space character separates words: the words on either side of
      it are kept apart, and none spans it. */
  lemma {:induction false} WordsSeparated(a: string, c: char, b: string)
    requires IsSpace(c)
    ensures Words(a + [c] + b) == Words(a) + Words(b)
    decreases |a|, 2
  {
    if |a| == 0 {
      assert a + [c] + b == [c] + b;
      WordsSpaceHead(c, b);
    } else if IsSpace(a[0]) {
      SeparatedAfterSpace(a, c, b);
    } else {
      SeparatedAfterWord(a, c, b);
    }
  }

  lemma {:induction false} SeparatedAfterSpace(a: string, c: char, b: string)
    requires IsSpace(c) && |a| > 0 && IsSpace(a[0])
    ensures Words(a + [c] + b) == Words(a) + Words(b)
    decreases |a|, 1
  {
    var rest := a[1..] + [c] + b;
    assert a + [c] + b == [a[0]] + rest;
    WordsSpaceHead(a[0], rest);
    WordsSeparated(a[1..], c, b);
    assert a == [a[0]] + a[1..];
    WordsSpaceHead(a[0], a[1..]);
  }

  lemma {:induction false} SeparatedAfterWord(a: string, c: char, b: string)
    requires IsSpace(c) && |a| > 0 && !IsSpace(a[0])
    ensures Words(a + [c] + b) == Words(a) + Words(b)
    decreases |a|, 1
  {
    var n := WordLength(a);
    if n == |a| {
      WholeWordThenSpace(a, c, b);
    } else {
      assert a == a[..n] + a[n..];
      SeparatedWordThenSpace(a[..n], a[n..], c, b);
    }
  }

  /** A word, then white space and more, then the separator. */
  lemma {:induction false} SeparatedWordThenSpace(w: string, r: string, c: char, b: string)
    requires IsSpace(c) && |w| > 0 && NoSpace(w) && |r| > 0 && IsSpace(r[0])
    ensures Words(w + r + [c] + b) == Words(w + r) + Words(b)
    decreases |w| + |r|, 0
  {
    var rest := r + [c] + b;
    assert rest[0] == r[0];
    calc {
      Words(w + r + [c] + b);
      { assert w + r + [c] + b == w + rest; }
      Words(w + rest);
      { WordThenSpace(w, rest); }
      [w] + Words(rest);
      { WordsSeparated(r, c, b); }
      [w] + (Words(r) + Words(b));
      ([w] + Words(r)) + Words(b);
      { WordThenSpace(w, r); }
      Words(w + r) + Words(b);
    }
  }

  /** A word alone, then white space. */
  lemma WholeWordThenSpace(a: string, c: char, b: string)
    requires IsSpace(c) && |a| > 0 && NoSpace(a)
    ensures Words(a + [c] + b) == Words(a) + Words(b)
  {
    assert a + [c] + b == a + ([c] + b);
    WordThenSpace(a, [c] + b);
    WordsSpaceHead(c, b);
  }

  /** A space-free word followed by white space is the first word. */
  lemma WordThenSpace(w: string, t: string)
    requires |w| > 0 && NoSpace(w)
    requires |t| > 0 && IsSpace(t[0])
    ensures Words(w + t) == [w] + Words(t)
  {
    var s := w + t;
    assert s[..|w|] == w;
    assert s[|w|] == t[0];
    WordLengthIs(s, |w|);
    WordsWordHead(s);
    assert s[|w|..] == t;
  }

  /** The word at the start of `s` is exactly a non-empty space-free prefix
      followed by a space or by the end. */
  lemma WordLengthIs(s: string, n: nat)
    requires 1 <= n <= |s| && NoSpace(s[..n])
    requires n < |s| ==> IsSpace(s[n])
    ensures !IsSpace(s[0]) && WordLength(s) == n
  {
    NoSpaceUpTo(s, n);
    var m := WordLength(s);
    NoSpaceUpTo(s, m);
  }

  /** A space-free prefix has no white space at any of its positions. */
  lemma NoSpaceUpTo(s: string, n: nat)
    requires n <= |s| && NoSpace(s[..n])
    ensures forall i :: 0 <= i < n ==> !IsSpace(s[i])
  {
    forall i | 0 <= i < n
      ensures !IsSpace(s[i])
    {
      assert s[..n][i] == s[i];
    }
  }

  /** Leading white space contributes no word. */
  lemma WordsSpaceHead(c: char, b: string)
    requires IsSpace(c)
    ensures Words([c] + b) == Words(b)
  {
    assert ([c] + b)[1..] == b;
  }

  /** A leading word is the first of the words. */
  lemma WordsWordHead(s: string)
    requires |s| > 0 && !IsSpace(s[0])
    ensures Words(s) == [s[..WordLength(s)]] + Words(s[WordLength(s)..])
  {
  }

  /** Words hold no space, and splitting them back out of their join gives
      them again. */
  lemma WordsSpaceFree(s: string)
    ensures SeparatorFree(Words(s), ' ')
    ensures Words(s) != [] ==> Split(Join(Words(s), ' '), ' ') == Words(s)
  {
    var ws := Words(s);
    forall i | 0 <= i < |ws|
      ensures ' ' !in ws[i]
    {
      assert NoSpace(ws[i]);
      assert IsSpace(' ');
    }
    if ws != [] {
      SplitJoin(ws, ' ');
    }
  }

  /** The words hold every non-space character of the command, in order, and
      nothing else. */
  lemma {:induction false} WordsKeepText(s: string)
    ensures Concat(Words(s)) == Squeeze(s)
    decreases |s|
  {
    if |s| > 0 {
      if IsSpace(s[0]) {
        WordsKeepText(s[1..]);
      } else {
        var n := WordLength(s);
        WordsKeepText(s[n..]);
        SqueezeWord(s, n);
        assert Words(s) == [s[..n]] + Words(s[n..]);
      }
    }
  }

  lemma {:induction false} SqueezeWord(s: string, n: nat)
    requires n <= |s| && NoSpace(s[..n])
    ensures Squeeze(s) == s[..n] + Squeeze(s[n..])
    decreases n
  {
    if n > 0 {
      assert !IsSpace(s[..n][0]);
      assert s[1..][..n - 1] == s[..n][1..];
      SqueezeWord(s[1..], n - 1);
      assert s[1..][n - 1..] == s[n..];
      assert s[..n] == [s[0]] + s[1..][..n - 1];
    }
  }
}

=== FILE: external_commands.dfy ===
/** External commands: text lines of the form `[<unix time>] VERB;arg;...`
    that operators send to change the engine's live state. The one command
    modelled is ENABLE_HOSTGROUP_PASSIVE_SVC_CHECKS;<group>, which lets every
    service of every host of a host group accept passive check results.

    Objects refer to each other by name and are resolved through the
    registry: a group lists its member hosts by name, and a host lists its
    services by key. A name that resolves to nothing is skipped. */
module ExternalCommands {
  import opened Results
  import opened Fields
  import opened Decimal

  datatype ServiceKey = ServiceKey(hostName: string, description: string)

  datatype Service = Service(acceptPassiveChecks: bool)

  /** `services`: the host's service member links. */
  datatype Host = Host(services: seq<ServiceKey>)

  /** `members`: the group's host member links, by host name. */
  datatype HostGroup = HostGroup(members: seq<string>)

  datatype Registry = Registry(
    hosts: map<string, Host>,
    services: map<ServiceKey, Service>,
    hostgroups: map<string, HostGroup>)

  datatype CommandLine = CommandLine(timestamp: nat, verb: string, args: seq<string>)

  datatype CommandError =
    | Malformed      // not of the form "[<time>] <command>"
    | UnknownVerb
    | BadArgCount
    | UnknownTarget  // no object of that name

  /** The registry after a command, and the error it was refused with. */
  datatype Processed = Processed(registry: Registry, error: Option<CommandError>)

  const EnableHostgroupPassiveSvcChecksVerb: string := "ENABLE_HOSTGROUP_PASSIVE_SVC_CHECKS"

  // ---------------------------------------------------------------------------
  // The command line

  /** The text of a command line. */
  function FormatCommandLine(c: CommandLine): string
  {
    "[" + FormatNat(c.timestamp) + "] " + Join([c.verb] + c.args, ';')
  }

  /** Reads a command line: a bracketed decimal time, one space, then the verb
      and its arguments separated by ';'. The time is informational. */
  function ParseCommandLine(line: string): (r: Result<CommandLine, CommandError>)
    ensures r.Ok? ==> r.value.timestamp <= Int64Max && ';' !in r.value.verb
    ensures r.Ok? ==> SeparatorFree(r.value.args, ';')
    ensures |line| == 0 || line[0] != '[' ==> r == Err(Malformed)
  {
    if |line| == 0 || line[0] != '[' then Err(Malformed)
    else
      var close := IndexOf(line, ']');
      if close < 1 then Err(Malformed)
      else
        var time := ParseUnsigned(line[1..close], Int64Max);
        var rest := line[close + 1..];
        if time.None? || |rest| == 0 || rest[0] != ' ' then Err(Malformed)
        else
          var parts := Split(rest[1..], ';');
          Ok(CommandLine(time.value, parts[0], parts[1..]))
  }

  // ---------------------------------------------------------------------------
  // ENABLE_HOSTGROUP_PASSIVE_SVC_CHECKS

  /** Service `k` is reached from the hosts named in `members`: one of them is
      registered and links to `k`. */
  predicate Reaches(hosts: map<string, Host>, members: seq<string>, k: ServiceKey)
  {
    exists i :: 0 <= i < |members| && members[i] in hosts && k in hosts[members[i]].services
  }

  /** Turns passive checks on for the services linked by `keys`; keys of no
      registered service are skipped. */
  function EnableServices(svcs: map<ServiceKey, Service>, keys: seq<ServiceKey>): (r: map<ServiceKey, Service>)
    ensures r.Keys == svcs.Keys
    ensures forall k :: k in r ==>
              r[k] == if k in keys then svcs[k].(acceptPassiveChecks := true) else svcs[k]
    decreases |keys|
  {
    if |keys| == 0 then svcs
    else
      var k := keys[0];
      var svcs' := if k in svcs then svcs[k := svcs[k].(acceptPassiveChecks := true)] else svcs;
      EnableServices(svcs', keys[1..])
  }

  /** Walks the group's members in order and enables the services of each
      registered one; names of no registered host are skipped. */
  function EnableMembers(hosts: map<string, Host>, svcs: map<ServiceKey, Service>, members: seq<string>)
    : (r: map<ServiceKey, Service>)
    ensures r.Keys == svcs.Keys
    ensures forall k :: k in r ==>
              r[k] == if Reaches(hosts, members, k) then svcs[k].(acceptPassiveChecks := true) else svcs[k]
    decreases |members|
  {
    if |members| == 0 then svcs
    else
      var name := members[0];
      var svcs' := if name in hosts then EnableServices(svcs, hosts[name].services) else svcs;
      var r := EnableMembers(hosts, svcs', members[1..]);
      assert forall k :: Reaches(hosts, members, k) <==>
        (name in hosts && k in hosts[name].services) || Reaches(hosts, members[1..], k) by {
        forall k
          ensures Reaches(hosts, members, k) ==>
                  (name in hosts && k in hosts[name].services) || Reaches(hosts, members[1..], k)
        {
          if Reaches(hosts, members, k) {
            var i :| 0 <= i < |members| && members[i] in hosts && k in hosts[members[i]].services;
            if i > 0 { assert members[1..][i - 1] == members[i]; }
          }
        }
        forall k | Reaches(hosts, members[1..], k)
          ensures Reaches(hosts, members, k)
        {
          var i :| 0 <= i < |members[1..]| && members[1..][i] in hosts && k in hosts[members[1..][i]].services;
          assert members[i + 1] == members[1..][i];
        }
      }
      r
  }

  /** The command's handler: an unknown group is refused and nothing changes;
      otherwise every service reached from the group accepts passive checks
      and every other service is left as it was. */
  function EnableHostgroupPassiveSvcChecks(reg: Registry, group: string): (r: Processed)
    ensures group !in reg.hostgroups <==> r.error == Some(UnknownTarget)
    ensures r.error.Some? ==> r.registry == reg
    ensures r.registry.hosts == reg.hosts && r.registry.hostgroups == reg.hostgroups
    ensures r.registry.services.Keys == reg.services.Keys
    ensures r.error.None? ==> forall k :: k in reg.services ==>
              r.registry.services[k].acceptPassiveChecks
              == (reg.services[k].acceptPassiveChecks || Reaches(reg.hosts, reg.hostgroups[group].members, k))
  {
    if group !in reg.hostgroups then Processed(reg, Some(UnknownTarget))
    else
      var services := EnableMembers(reg.hosts, reg.services, reg.hostgroups[group].members);
      Processed(reg.(services := services), None)
  }

  /** `process_external_command`: reads the line and runs the handler of its
      verb. A refused command changes nothing. */
  function ProcessExternalCommand(reg: Registry, line: string): (r: Processed)
    ensures r.error.Some? ==> r.registry == reg
    ensures r.registry.hosts == reg.hosts && r.registry.hostgroups == reg.hostgroups
    ensures ParseCommandLine(line).Err? ==> r.error == Some(ParseCommandLine(line).error)
    ensures (ParseCommandLine(line).Ok? && ParseCommandLine(line).value.verb != EnableHostgroupPassiveSvcChecksVerb)
            ==> r.error == Some(UnknownVerb)
    ensures (ParseCommandLine(line).Ok? && ParseCommandLine(line).value.verb == EnableHostgroupPassiveSvcChecksVerb
             && |ParseCommandLine(line).value.args| != 1)
            ==> r.error == Some(BadArgCount)
    ensures (ParseCommandLine(line).Ok? && ParseCommandLine(line).value.verb == EnableHostgroupPassiveSvcChecksVerb
             && |ParseCommandLine(line).value.args| == 1)
            ==> r == EnableHostgroupPassiveSvcChecks(reg, ParseCommandLine(line).value.args[0])
  {
    match ParseCommandLine(line)
    case Err(e) => Processed(reg, Some(e))
    case Ok(c) =>
      if c.verb != EnableHostgroupPassiveSvcChecksVerb then Processed(reg, Some(UnknownVerb))
      else if |c.args| != 1 then Processed(reg, Some(BadArgCount))
      else EnableHostgroupPassiveSvcChecks(reg, c.args[0])
  }

  // ---------------------------------------------------------------------------
  // Proofs

  /** A command line is read back as written when its verb and arguments hold
      no ';' and its time fits the engine's time type. */
  lemma ParseFormatCommandLine(c: CommandLine)
    requires c.timestamp <= Int64Max
    requires ';' !in c.verb && SeparatorFree(c.args, ';')
    ensures ParseCommandLine(FormatCommandLine(c)) == Ok(c)
  {
    var digits := FormatNat(c.timestamp);
    var fields := [c.verb] + c.args;
    var body := Join(fields, ';');
    var line := FormatCommandLine(c);
    var prefix := "[" + digits;
    CommandLineShape(c);
    IndexOfAfter(prefix, ']', " " + body);
    ParseFormatUnsigned(c.timestamp, Int64Max);
    assert Split(line[|prefix| + 2..], ';') == fields by {
      assert line[|prefix| + 2..] == body;
      SplitJoin(fields, ';');
    }
    assert fields[1..] == c.args;
    ParseCommandLineOf(line, |prefix|, c.timestamp, fields);
  }

  /** The pieces of a written command line: the bracketed time, then a space
      and the fields, which hold no ';' when the verb and arguments do not. */
  lemma CommandLineShape(c: CommandLine)
    requires ';' !in c.verb && SeparatorFree(c.args, ';')
    ensures var prefix := "[" + FormatNat(c.timestamp);
            var body := Join([c.verb] + c.args, ';');
            && ']' !in prefix
            && FormatCommandLine(c) == prefix + [']'] + (" " + body)
            && FormatCommandLine(c)[1..|prefix|] == FormatNat(c.timestamp)
            && FormatCommandLine(c)[|prefix| + 2..] == body
            && SeparatorFree([c.verb] + c.args, ';')
  {
    var digits := FormatNat(c.timestamp);
    var prefix := "[" + digits;
    var fields := [c.verb] + c.args;
    var body := Join(fields, ';');
    var line := FormatCommandLine(c);
    assert ']' !in prefix by {
      FormatIntChars(c.timestamp, ']');
    }
    assert line == prefix + [']'] + (" " + body);
    assert line[1..|prefix|] == digits;
    assert line[|prefix| + 2..] == body;
    forall i | 0 <= i < |fields|
      ensures ';' !in fields[i]
    {
      if i > 0 { assert fields[i] == c.args[i - 1]; }
    }
  }

  /** Reading a line whose ']' is at `close`, whose bracketed time reads as
      `time`, and whose text after "] " splits into `parts`. */
  lemma ParseCommandLineOf(line: string, close: nat, time: nat, parts: seq<string>)
    requires 1 <= close < |line| && line[0] == '['
    requires IndexOf(line, ']') == close
    requires ParseUnsigned(line[1..close], Int64Max) == Some(time)
    requires |line[close + 1..]| >= 1 && line[close + 1] == ' '
    requires Split(line[close + 2..], ';') == parts
    ensures ParseCommandLine(line) == Ok(CommandLine(time, parts[0], parts[1..]))
  {
    assert line[close + 1..][1..] == line[close + 2..];
  }

  /** The handler is idempotent: running it a second time changes nothing. */
  lemma EnableIdempotent(reg: Registry, group: string)
    ensures var once := EnableHostgroupPassiveSvcChecks(reg, group).registry;
            EnableHostgroupPassiveSvcChecks(once, group).registry == once
  {
    var once := EnableHostgroupPassiveSvcChecks(reg, group).registry;
    var twice := EnableHostgroupPassiveSvcChecks(once, group).registry;
    if group in reg.hostgroups {
      assert twice.services == once.services by {
        forall k | k in once.services
          ensures twice.services[k] == once.services[k]
        {
        }
      }
    }
  }

  /** The handler's effect depends on which hosts the group holds, not on
      their order or repetition. */
  lemma EnableMembersOrderFree(hosts: map<string, Host>, svcs: map<ServiceKey, Service>,
                               m1: seq<string>, m2: seq<string>)
    requires forall n :: n in m1 <==> n in m2
    ensures EnableMembers(hosts, svcs, m1) == EnableMembers(hosts, svcs, m2)
  {
    var r1 := EnableMembers(hosts, svcs, m1);
    var r2 := EnableMembers(hosts, svcs, m2);
    forall k | k in r1
      ensures r1[k] == r2[k]
    {
      ReachesByMembership(hosts, m1, m2, k);
      ReachesByMembership(hosts, m2, m1, k);
    }
  }

  lemma ReachesByMembership(hosts: map<string, Host>, m1: seq<string>, m2: seq<string>, k: ServiceKey)
    requires forall n :: n in m1 <==> n in m2
    ensures Reaches(hosts, m1, k) ==> Reaches(hosts, m2, k)
  {
    if Reaches(hosts, m1, k) {
      var i :| 0 <= i < |m1| && m1[i] in hosts && k in hosts[m1[i]].services;
      assert m1[i] in m2;
      var j :| 0 <= j < |m2| && m2[j] == m1[i];
    }
  }

  // ---------------------------------------------------------------------------
  // The scenario of the command's test: host "name" with service
  // ("name", "description") not accepting passive checks, in group "group".

  const TestKey: ServiceKey := ServiceKey("name", "description")

  function TestRegistry(): Registry
  {
    Registry(
      map["name" := Host([TestKey])],
      map[TestKey := Service(false)],
      map["group" := HostGroup(["name"])])
  }

  const TestLine: string := "[1317196300] " + EnableHostgroupPassiveSvcChecksVerb + ";group"

  /** The digits of the test's time stamp. */
  lemma TestTimeDigits()
    ensures FormatNat(1317196300) == "1317196300"
  {
    assert FormatNat(1) == "1";
    assert FormatNat(13) == "13";
    assert FormatNat(131) == "131";
    assert FormatNat(1317) == "1317";
    assert FormatNat(13171) == "13171";
    assert FormatNat(131719) == "131719";
    assert FormatNat(1317196) == "1317196";
    assert FormatNat(13171963) == "13171963";
    assert FormatNat(131719630) == "131719630";
  }

  /** The test's line is the command with the group as its one argument. */
  lemma TestLineParses(group: string)
    requires ';' !in group
    ensures ParseCommandLine("[1317196300] " + EnableHostgroupPassiveSvcChecksVerb + ";" + group)
            == Ok(CommandLine(1317196300, EnableHostgroupPassiveSvcChecksVerb, [group]))
  {
    var c := CommandLine(1317196300, EnableHostgroupPassiveSvcChecksVerb, [group]);
    TestTimeDigits();
    assert [c.verb] + c.args == [c.verb, group];
    assert Join([c.verb, group], ';') == c.verb + [';'] + group;
    assert "[1317196300] " == "[" + "1317196300" + "] ";
    assert FormatCommandLine(c) == "[1317196300] " + (c.verb + [';'] + group);
    assert FormatCommandLine(c) == "[1317196300] " + c.verb + ";" + group;
    assert ';' !in c.verb by { VerbHasNoSemicolon(); }
    assert SeparatorFree(c.args, ';');
    ParseFormatCommandLine(c);
  }

  lemma VerbHasNoSemicolon()
    ensures ';' !in EnableHostgroupPassiveSvcChecksVerb
  {
    var v := EnableHostgroupPassiveSvcChecksVerb;
    forall i | 0 <= i < |v|
      ensures v[i] != ';'
    {
      assert 'A' <= v[i] <= 'Z' || v[i] == '_';
    }
  }

  /** After the test's command line the service accepts passive checks. */
  lemma EnableHostgroupScenario()
    ensures var r := ProcessExternalCommand(TestRegistry(), TestLine);
            r.error.None? && r.registry.services[TestKey].acceptPassiveChecks
  {
    assert TestLine == "[1317196300] " + EnableHostgroupPassiveSvcChecksVerb + ";" + "group";
    TestLineParses("group");
    var reg := TestRegistry();
    assert Reaches(reg.hosts, reg.hostgroups["group"].members, TestKey) by {
      assert reg.hostgroups["group"].members[0] == "name";
    }
  }

  /** An unknown group is refused and no service changes. */
  lemma UnknownGroupScenario()
    ensures var r := ProcessExternalCommand(TestRegistry(),
                       "[1317196300] " + EnableHostgroupPassiveSvcChecksVerb + ";" + "nogroup");
            r.error == Some(UnknownTarget) && r.registry == TestRegistry()
  {
    TestLineParses("nogroup");
  }
}

=== FILE: fields.dfy ===
/** Separator-delimited fields of a byte string: the `indexOf`, `left` and
    `split` operations of the engine's byte arrays, and their inverse `Join`. */
module Fields {

  /** Position of the first `c` in `s`, or -1 when `s` has none. */
  function IndexOf(s: seq<char>, c: char): (pos: int)
    ensures -1 <= pos < |s|
    ensures pos == -1 <==> c !in s
    ensures 0 <= pos ==> s[pos] == c && c !in s[..pos]
  {
    if |s| == 0 then -1
    else if s[0] == c then 0
    else
      var p := IndexOf(s[1..], c);
      assert p >= 0 ==> s[..p + 1] == [s[0]] + s[1..][..p];
      if p == -1 then -1 else p + 1
  }

  /** The part of `s` before its first `c`; all of `s` when there is none. */
  function Left(s: seq<char>, c: char): (prefix: seq<char>)
    ensures c !in prefix
    ensures prefix <= s
    ensures |prefix| < |s| ==> s[|prefix|] == c
  {
    var pos := IndexOf(s, c);
    s[..if pos < 0 then |s| else pos]
  }

  /** Cuts `s` at every `sep`. Empty fields are kept, so there is always one
      field more than there are separators, and the empty string is one
      empty field. */
  function Split(s: seq<char>, sep: char): (fields: seq<seq<char>>)
    ensures |fields| >= 1
    ensures forall i :: 0 <= i < |fields| ==> sep !in fields[i]
    ensures fields[0] == Left(s, sep)
    decreases |s|
  {
    var pos := IndexOf(s, sep);
    if pos < 0 then [s] else [s[..pos]] + Split(s[pos + 1..], sep)
  }

  /** Glues `fields` back together with one `sep` between neighbours. */
  function Join(fields: seq<seq<char>>, sep: char): seq<char>
  {
    if |fields| == 0 then []
    else if |fields| == 1 then fields[0]
    else fields[0] + [sep] + Join(fields[1..], sep)
  }

  /** No field of `fields` holds the separator. */
  predicate SeparatorFree(fields: seq<seq<char>>, sep: char)
  {
    forall i :: 0 <= i < |fields| ==> sep !in fields[i]
  }

  /** Number of occurrences of `c` in `s`. */
  function Count(s: seq<char>, c: char): nat
  {
    if |s| == 0 then 0 else (if s[0] == c then 1 else 0) + Count(s[1..], c)
  }

  lemma {:induction false} CountAppend(a: seq<char>, b: seq<char>, c: char)
    ensures Count(a + b, c) == Count(a, c) + Count(b, c)
    decreases |a|
  {
    if |a| > 0 {
      CountAppend(a[1..], b, c);
      assert (a + b)[1..] == a[1..] + b;
    } else {
      assert a + b == b;
    }
  }

  lemma {:induction false} CountAbsent(a: seq<char>, c: char)
    requires c !in a
    ensures Count(a, c) == 0
    decreases |a|
  {
    if |a| > 0 {
      CountAbsent(a[1..], c);
    }
  }

  /** The first `c` after a `c`-free prefix is the one right after it. */
  lemma IndexOfAfter(a: seq<char>, c: char, b: seq<char>)
    requires c !in a
    ensures IndexOf(a + [c] + b, c) == |a|
  {
    var s := a + [c] + b;
    assert s[|a|] == c;
    assert s[..|a|] == a;
  }

  /** A separator-free field in front of a separator is the first field. */
  lemma SplitCons(f: seq<char>, rest: seq<char>, sep: char)
    requires sep !in f
    ensures Split(f + [sep] + rest, sep) == [f] + Split(rest, sep)
  {
    var s := f + [sep] + rest;
    IndexOfAfter(f, sep, rest);
    assert s[..|f|] == f;
    assert s[|f| + 1..] == rest;
  }

  /** Separator-free fields joined in front of a separator stay the leading
      fields, whatever follows. */
  lemma SplitPrefix(fields: seq<seq<char>>, rest: seq<char>, sep: char)
    requires |fields| >= 1 && SeparatorFree(fields, sep)
    ensures Split(Join(fields, sep) + [sep] + rest, sep) == fields + Split(rest, sep)
  {
    SplitAround(Join(fields, sep), rest, sep);
    SplitJoin(fields, sep);
  }

  /** Joining the fields of a split gives back the original string. */
  lemma {:induction false} JoinSplit(s: seq<char>, sep: char)
    ensures Join(Split(s, sep), sep) == s
    decreases |s|
  {
    if sep in s {
      var pos := IndexOf(s, sep);
      var a, rest := s[..pos], s[pos + 1..];
      assert s == a + [sep] + rest;
      SplitCons(a, rest, sep);
      JoinSplit(rest, sep);
      var fs := [a] + Split(rest, sep);
      assert fs[1..] == Split(rest, sep);
    } else {
      assert IndexOf(s, sep) == -1;
    }
  }

  /** Splitting separator-free fields joined by the separator gives them back. */
  lemma {:induction false} SplitJoin(fields: seq<seq<char>>, sep: char)
    requires |fields| >= 1
    requires SeparatorFree(fields, sep)
    ensures Split(Join(fields, sep), sep) == fields
    decreases |fields|
  {
    if |fields| > 1 {
      assert sep !in fields[0];
      SplitCons(fields[0], Join(fields[1..], sep), sep);
      SplitJoin(fields[1..], sep);
      assert fields == [fields[0]] + fields[1..];
    } else {
      assert sep !in fields[0];
    }
  }

  /** Joining two non-empty field lists is joining their joins. */
  lemma {:induction false} JoinAppend(xs: seq<seq<char>>, ys: seq<seq<char>>, sep: char)
    requires |xs| >= 1 && |ys| >= 1
    ensures Join(xs + ys, sep) == Join(xs, sep) + [sep] + Join(ys, sep)
    decreases |xs|
  {
    if |xs| > 1 {
      JoinAppend(xs[1..], ys, sep);
      assert (xs + ys)[1..] == xs[1..] + ys;
    } else {
      assert (xs + ys)[1..] == ys;
    }
  }

  /** A separator splits the string into the fields on either side of it. */
  lemma SplitAround(a: seq<char>, b: seq<char>, sep: char)
    ensures Split(a + [sep] + b, sep) == Split(a, sep) + Split(b, sep)
  {
    var xs := Split(a, sep);
    var ys := Split(b, sep);
    JoinSplit(a, sep);
    JoinSplit(b, sep);
    JoinAppend(xs, ys, sep);
    assert SeparatorFree(xs + ys, sep) by {
      forall i | 0 <= i < |xs + ys|
        ensures sep !in (xs + ys)[i]
      {
        if i < |xs| { assert (xs + ys)[i] == xs[i]; }
        else { assert (xs + ys)[i] == ys[i - |xs|]; }
      }
    }
    SplitJoin(xs + ys, sep);
  }

  /** A split yields exactly one field more than the separators in the string. */
  lemma {:induction false} SplitLength(s: seq<char>, sep: char)
    ensures |Split(s, sep)| == Count(s, sep) + 1
    decreases |s|
  {
    if sep !in s {
      CountAbsent(s, sep);
      assert IndexOf(s, sep) == -1;
    } else {
      var pos := IndexOf(s, sep);
      var a, rest := s[..pos], s[pos + 1..];
      assert s == a + [sep] + rest;
      SplitCons(a, rest, sep);
      SplitLength(rest, sep);
      CountSeparated(a, rest, sep);
    }
  }

  /** The separators of `a + [sep] + rest` when `a` has none. */
  lemma CountSeparated(a: seq<char>, rest: seq<char>, sep: char)
    requires sep !in a
    ensures Count(a + [sep] + rest, sep) == Count(rest, sep) + 1
  {
    CountAppend(a, [sep] + rest, sep);
    CountAbsent(a, sep);
    assert ([sep] + rest)[1..] == rest;
    assert a + [sep] + rest == a + ([sep] + rest);
  }
}

=== FILE: host_recovery.dfy ===
/** Whether asking a host for a recovery notification actually sends one.
    A sent notification consumes a notification id, so "sent" shows as the
    host's next notification id going up by one; a suppressed one leaves the
    host as it was. Either way the call reports success.

    The host is described by the five inputs the decision reads; the other
    filters of the notifier (notifications enabled, not acknowledged, inside
    the notification period, recovery among the notified states) are taken
    as passing, as they do for the host of the recovery tests. */
module HostRecovery {

  datatype HostState = Up | Down | Unreachable

  datatype StateType = Soft | Hard

  datatype Host = Host(
    currentState: HostState,
    stateType: StateType,
    lastHardStateChange: int,       // seconds since the epoch
    recoveryNotificationDelay: nat, // seconds
    nextNotificationId: nat)

  /** The notifier's return code; suppression is not an error. */
  datatype Status = Ok | Error

  datatype Notified = Notified(status: Status, host: Host)

  /** A recovery is worth sending when the host is up in a hard state and the
      delay since that hard change has run out. */
  predicate RecoveryViable(h: Host, now: int)
  {
    && h.currentState == Up
    && h.stateType == Hard
    && now - h.lastHardStateChange >= h.recoveryNotificationDelay
  }

  /** `notify` with the recovery reason at time `now`. */
  function NotifyRecovery(h: Host, now: int): (r: Notified)
    ensures r.status == Ok
    ensures r.host.nextNotificationId == h.nextNotificationId + 1 <==> RecoveryViable(h, now)
    ensures r.host.nextNotificationId == h.nextNotificationId <==> !RecoveryViable(h, now)
    ensures r.host.(nextNotificationId := h.nextNotificationId) == h
  {
    if RecoveryViable(h, now) then Notified(Ok, h.(nextNotificationId := h.nextNotificationId + 1))
    else Notified(Ok, h)
  }

  // ---------------------------------------------------------------------------
  // The recovery tests. The fixture puts the host hard down with no recovery
  // delay, sets the clock to 43200 and sends a first notification; `id` is
  // the next notification id that first notification left. The fixture never
  // sets the last hard state change, so it stays 0 here: the down and soft-up
  // tests refuse on the state alone and the hard-up tests set it themselves.

  const FixtureTime: int := 43200

  function Fixture(id: nat): Host
  {
    Host(Down, Hard, 0, 0, id)
  }

  /** Still hard down five minutes later: nothing is sent. */
  lemma RecoveryWithDownState(id: nat)
    ensures var r := NotifyRecovery(Fixture(id), FixtureTime + 300);
            r.status == Ok && r.host.nextNotificationId == id
  {
  }

  /** Hard up since the fixture time, no delay, notified five minutes later:
      one notification is sent. */
  lemma RecoveryWithHardUpState(id: nat)
    ensures var h := Fixture(id).(currentState := Up, stateType := Hard,
                                  lastHardStateChange := FixtureTime);
            var r := NotifyRecovery(h, FixtureTime + 300);
            r.status == Ok && r.host.nextNotificationId == id + 1
  {
  }

  /** Soft up: nothing is sent. */
  lemma RecoveryWithSoftUpState(id: nat)
    ensures var h := Fixture(id).(currentState := Up, stateType := Soft);
            var r := NotifyRecovery(h, FixtureTime + 300);
            r.status == Ok && r.host.nextNotificationId == id
  {
  }

  /** Hard up with a 600 second delay, notified after 300 seconds: nothing is
      sent. */
  lemma RecoveryWithinDelay(id: nat)
    ensures var h := Fixture(id).(currentState := Up, stateType := Hard,
                                  recoveryNotificationDelay := 600,
                                  lastHardStateChange := FixtureTime);
            var r := NotifyRecovery(h, FixtureTime + 300);
            r.status == Ok && r.host.nextNotificationId == id
  {
  }

  // ---------------------------------------------------------------------------
  // General properties

  /** The delay is a threshold in time: a host that would get its recovery at
      `now` still gets it at any later time, and one suppressed at `now` for a
      reason other than the delay is suppressed at every time. */
  lemma RecoveryMonotoneInTime(h: Host, now: int, later: int)
    requires now <= later
    ensures RecoveryViable(h, now) ==> RecoveryViable(h, later)
    ensures h.currentState != Up || h.stateType != Hard ==> !RecoveryViable(h, later)
  {
  }

  /** The delay is the exact boundary: a hard up host is notified at the
      instant the delay runs out and not one second before. */
  lemma RecoveryDelayBoundary(h: Host)
    requires h.currentState == Up && h.stateType == Hard
    ensures NotifyRecovery(h, h.lastHardStateChange + h.recoveryNotificationDelay).host.nextNotificationId
            == h.nextNotificationId + 1
    ensures NotifyRecovery(h, h.lastHardStateChange + h.recoveryNotificationDelay - 1).host
            == h
  {
  }
}

=== FILE: hostsmember.dfy ===
/** Host group membership lists: a singly linked chain of `hostsmember`
    records, each naming one host and pointing at the next. `release` frees
    the record at the head of a chain and hands back its successor.

    Memory is a map from addresses to records; address 0 is NULL. Freeing a
    record removes its address from the map. */
module HostsMembers {

  type Ptr = nat

  const Null: Ptr := 0

  datatype HostsMember = HostsMember(hostName: string, next: Ptr)

  type Heap = map<Ptr, HostsMember>

  /** `xs` lists, in order, the addresses of the chain that starts at `p`
      and ends at NULL. */
  ghost predicate ChainOf(h: Heap, p: Ptr, xs: seq<Ptr>)
    decreases |xs|
  {
    if xs == [] then p == Null
    else p == xs[0] && p != Null && p in h && ChainOf(h, h[p].next, xs[1..])
  }

  /** What `release` leaves behind: the memory and the address it returns. */
  datatype Released = Released(heap: Heap, next: Ptr)

  /** `objects::release`: NULL gives NULL; otherwise the record is freed and
      its successor returned. */
  function Release(h: Heap, p: Ptr): (r: Released)
    requires p == Null || p in h
    ensures p == Null ==> r == Released(h, Null)
    ensures p != Null ==> r.next == h[p].next && r.heap.Keys == h.Keys - {p}
    ensures forall a :: a in r.heap ==> r.heap[a] == h[a]
  {
    if p == Null then Released(h, Null)
    else Released(h - {p}, h[p].next)
  }

  /** `release_hostsmember`, the C entry point: the result of `release`, or
      NULL when `release` throws. Whether it throws is given as `raises`,
      since nothing in the model of `release` can throw. */
  function ReleaseHostsMember(h: Heap, p: Ptr, raises: bool): (next: Ptr)
    requires p == Null || p in h
    ensures !raises ==> next == Release(h, p).next
    ensures raises ==> next == Null
  {
    if raises then Null else Release(h, p).next
  }

  /** Releases a whole chain from its head, one record per step, and reports
      how many steps it took. */
  method ReleaseAll(h: Heap, p: Ptr, ghost xs: seq<Ptr>) returns (h': Heap, steps: nat)
    requires ChainOf(h, p, xs)
    ensures steps == |xs|
    ensures forall a :: a in h' <==> a in h && a !in xs
    ensures forall a :: a in h' ==> h'[a] == h[a]
  {
    h', steps := h, 0;
    var cur := p;
    ghost var rest := xs;
    while cur != Null
      invariant 0 <= steps <= |xs| && rest == xs[steps..]
      invariant ChainOf(h', cur, rest)
      invariant forall a :: a in h' <==> a in h && a !in xs[..steps]
      invariant forall a :: a in h' ==> h'[a] == h[a]
      decreases |rest|
    {
      ReleaseStep(h', cur, rest);
      assert xs[..steps + 1] == xs[..steps] + [cur];
      var r := Release(h', cur);
      h', cur := r.heap, r.next;
      rest := rest[1..];
      steps := steps + 1;
    }
    assert rest == [];
    assert xs[..steps] == xs;
  }

  // ---------------------------------------------------------------------------
  // Proofs

  /** A chain is determined by its head. */
  lemma {:induction false} ChainUnique(h: Heap, p: Ptr, xs: seq<Ptr>, ys: seq<Ptr>)
    requires ChainOf(h, p, xs) && ChainOf(h, p, ys)
    ensures xs == ys
    decreases |xs|
  {
    if xs != [] {
      assert ys != [];
      ChainUnique(h, h[p].next, xs[1..], ys[1..]);
      assert xs == [xs[0]] + xs[1..] && ys == [ys[0]] + ys[1..];
    } else {
      assert ys == [];
    }
  }

  /** Every suffix of a chain is the chain of its first address. */
  lemma {:induction false} ChainSuffix(h: Heap, p: Ptr, xs: seq<Ptr>, k: nat)
    requires ChainOf(h, p, xs) && k < |xs|
    ensures ChainOf(h, xs[k], xs[k..])
    decreases k
  {
    if k > 0 {
      ChainSuffix(h, h[p].next, xs[1..], k - 1);
      assert xs[1..][k - 1..] == xs[k..];
    }
  }

  /** A chain that ends at NULL has no cycle: its head does not occur again. */
  lemma ChainHeadNotInTail(h: Heap, p: Ptr, xs: seq<Ptr>)
    requires ChainOf(h, p, xs) && xs != []
    ensures p !in xs[1..]
  {
    if p in xs[1..] {
      var k :| 1 <= k < |xs| && xs[k] == p;
      ChainSuffix(h, p, xs, k);
      ChainUnique(h, p, xs, xs[k..]);
      assert false;
    }
  }

  /** Freeing an address outside a chain leaves the chain intact. */
  lemma {:induction false} ChainFrame(h: Heap, p: Ptr, xs: seq<Ptr>, gone: Ptr)
    requires ChainOf(h, p, xs) && gone !in xs
    ensures ChainOf(h - {gone}, p, xs)
    decreases |xs|
  {
    if xs != [] {
      ChainFrame(h, h[p].next, xs[1..], gone);
    }
  }

  /** One `release` from the head of a chain leaves exactly the rest of the
      chain, which starts at the address returned. */
  lemma ReleaseStep(h: Heap, p: Ptr, xs: seq<Ptr>)
    requires ChainOf(h, p, xs)
    ensures p == Null || p in h
    ensures xs == [] ==> Release(h, p) == Released(h, Null)
    ensures xs != [] ==> ChainOf(Release(h, p).heap, Release(h, p).next, xs[1..])
  {
    if xs != [] {
      ChainHeadNotInTail(h, p, xs);
      ChainFrame(h, h[p].next, xs[1..], p);
    }
  }

  /** Without an exception the C entry point agrees with `release`, so it
      returns NULL or an address further down the chain. */
  lemma ReleaseHostsMemberInChain(h: Heap, p: Ptr, xs: seq<Ptr>, raises: bool)
    requires ChainOf(h, p, xs)
    ensures p == Null || p in h
    ensures var next := ReleaseHostsMember(h, p, raises);
            next == Null || (|xs| >= 2 && next == xs[1])
  {
    if xs != [] && |xs| >= 2 {
      assert ChainOf(h, h[p].next, xs[1..]);
    } else if xs != [] {
      assert xs[1..] == [];
    }
  }
}

=== FILE: request_builder.dfy ===
/** The connector's request builder: it reads the kind id at the front of a
    message, finds the registered prototype of that kind, and returns a copy
    of it refilled from the message. */
module RequestBuilder {
  import opened Results
  import opened Fields
  import opened Decimal
  import opened Requests
  import opened ExecuteQueries

  /** A connector message. Execute requests are modelled in full; for the
      other five kinds only the kind is, and `data` records the message their
      `restore` was given. */
  datatype Request = Execute(query: ExecuteQuery) | Opaque(kind: Kind, data: string)

  /** `get_id()`: the kind id of a request. */
  function RequestId(r: Request): nat
  {
    match r
    case Execute(q) => q.id
    case Opaque(k, _) => KindId(k)
  }

  /** The default-constructed request of each kind. */
  function Prototype(k: Kind): (r: Request)
    ensures RequestId(r) == KindId(k)
  {
    if k == ExecuteQ then Execute(NewExecuteQuery(0, "", 0, 0)) else Opaque(k, [])
  }

  /** `_list.insert(req->get_id(), req)`. */
  function Register(table: map<nat, Request>, r: Request): (t: map<nat, Request>)
    ensures t.Keys == table.Keys + {RequestId(r)}
  {
    table[RequestId(r) := r]
  }

  /** The six kinds in the order the constructor registers them. */
  const ConstructorOrder: seq<Kind> := [VersionQ, VersionR, ExecuteQ, ExecuteR, QuitQ, QuitR]

  /** Registers the prototype of each kind of `ks`, in order. */
  function RegisterAll(table: map<nat, Request>, ks: seq<Kind>): map<nat, Request>
    decreases |ks|
  {
    if ks == [] then table else RegisterAll(Register(table, Prototype(ks[0])), ks[1..])
  }

  /** The ids of the kinds in `ks`. */
  function KindIds(ks: seq<Kind>): (ids: set<nat>)
    ensures forall k :: k in ks ==> KindId(k) in ids
    decreases |ks|
  {
    if ks == [] then {} else {KindId(ks[0])} + KindIds(ks[1..])
  }

  /** The constructor's table: one prototype of each of the six kinds. */
  function PrototypeTable(): (t: map<nat, Request>)
    ensures forall k :: k in ConstructorOrder ==> KindId(k) in t && t[KindId(k)] == Prototype(k)
  {
    RegisterAllFiles(map[], ConstructorOrder);
    RegisterAll(map[], ConstructorOrder)
  }

  /** Every prototype is filed under its own kind id. */
  predicate KeyedById(table: map<nat, Request>)
  {
    forall id :: id in table ==> RequestId(table[id]) == id
  }

  /** `clone`: with the corrected copy, an exact copy. */
  function CloneRequest(r: Request): (c: Request)
    ensures c == r
  {
    match r
    case Execute(q) => Execute(Clone(q))
    case Opaque(_, _) => r
  }

  /** `restore` on a request of any kind. */
  function RestoreRequest(r: Request, data: string): (res: Result<Request, ConnectorError>)
    ensures res.Ok? ==> RequestId(res.value) == RequestId(r)
    ensures r.Execute? ==> (res.Err? <==> Restore(r.query, data).error.Some?)
    ensures r.Execute? && res.Err? ==> Restore(r.query, data).error == Some(res.error)
    ensures r.Execute? && res.Ok? ==> res.value == Execute(Restore(r.query, data).query)
    ensures r.Opaque? ==> res == Ok(Opaque(r.kind, data))
  {
    match r
    case Execute(q) =>
      var restored := Restore(q, data);
      if restored.error.Some? then Err(restored.error.value) else Ok(Execute(restored.query))
    case Opaque(k, _) => Ok(Opaque(k, data))
  }

  /** The kind tag: the message up to its first NUL, or all of it. */
  function Tag(data: string): (tag: string)
    ensures tag == Split(data, Nul)[0]
    ensures Nul !in tag && tag <= data
  {
    Left(data, Nul)
  }

  /** `build`: refuses a tag that is not a number or names no registered
      kind; otherwise restores a copy of the kind's prototype from the whole
      message, tag included. */
  function Build(table: map<nat, Request>, data: string): (r: Result<Request, ConnectorError>)
    ensures ParseUnsigned(Tag(data), UInt32Max).None? ==> r == Err(BadRequestId)
    ensures (ParseUnsigned(Tag(data), UInt32Max).Some?
             && ParseUnsigned(Tag(data), UInt32Max).value !in table) ==> r == Err(BadRequestId)
    ensures var id := ParseUnsigned(Tag(data), UInt32Max);
            id.Some? && id.value in table ==> r == RestoreRequest(table[id.value], data)
  {
    var id := ParseUnsigned(Tag(data), UInt32Max);
    if id.None? then Err(BadRequestId)
    else if id.value !in table then Err(BadRequestId)
    else RestoreRequest(CloneRequest(table[id.value]), data)
  }

  /** `build` over the constructor's table: a tag that is not a number below
      6 is refused, and any other restores the prototype of the kind it names. */
  function Dispatch(data: string): (r: Result<Request, ConnectorError>)
    ensures var id := ParseUnsigned(Tag(data), UInt32Max);
            id.None? || id.value >= 6 ==> r == Err(BadRequestId)
    ensures var id := ParseUnsigned(Tag(data), UInt32Max);
            id.Some? && id.value < 6 ==> r == RestoreRequest(Prototype(KindOf(id.value)), data)
  {
    PrototypeTableById();
    Build(PrototypeTable(), data)
  }

  /** `build` with `clone` as written, whose copy of an execute request holds
      an arbitrary command id `junk`. */
  function BuildAsWritten(table: map<nat, Request>, data: string, junk: UInt64): (r: Result<Request, ConnectorError>)
    ensures ParseUnsigned(Tag(data), UInt32Max).None? ==> r == Err(BadRequestId)
    ensures (ParseUnsigned(Tag(data), UInt32Max).Some?
             && ParseUnsigned(Tag(data), UInt32Max).value !in table) ==> r == Err(BadRequestId)
    ensures var id := ParseUnsigned(Tag(data), UInt32Max);
            id.Some? && id.value in table && table[id.value].Opaque? ==> r == RestoreRequest(table[id.value], data)
    ensures r.Ok? ==> RequestId(r.value) == RequestId(table[ParseUnsigned(Tag(data), UInt32Max).value])
  {
    var id := ParseUnsigned(Tag(data), UInt32Max);
    if id.None? then Err(BadRequestId)
    else if id.value !in table then Err(BadRequestId)
    else
      var proto := table[id.value];
      var copy := if proto.Execute? then Execute(CloneAsWritten(proto.query, junk)) else proto;
      RestoreRequest(copy, data)
  }

  // ---------------------------------------------------------------------------
  // Proofs

  /** `restore` overwrites the command id before anything reads it, and a
      failed `restore` yields no request, so the command id `clone` loses
      never reaches the caller of `build`. */
  lemma BuildAsWrittenAgrees(table: map<nat, Request>, data: string, junk: UInt64)
    ensures BuildAsWritten(table, data, junk) == Build(table, data)
  {
    var id := ParseUnsigned(Tag(data), UInt32Max);
    if id.Some? && id.value in table && table[id.value].Execute? {
      var proto := table[id.value];
      RestoreIgnoresPayload(CloneAsWritten(proto.query, junk), proto.query, data);
    }
  }

  /** A successful restore depends on the prototype only through its kind
      id; whether it fails does not depend on the prototype's other fields. */
  lemma RestoreIgnoresPayload(p1: ExecuteQuery, p2: ExecuteQuery, data: string)
    requires p1.id == p2.id
    ensures RestoreRequest(Execute(p1), data) == RestoreRequest(Execute(p2), data)
  {
    var r1, r2 := Restore(p1, data), Restore(p2, data);
    RestoreErrorIgnoresPayload(p1, p2, data);
    if r1.error.None? {
      RestoreAccepts(p1, data, r1.query.cmdId, r1.query.timeout, r1.query.startMs);
      RestoreAccepts(p2, data, r1.query.cmdId, r1.query.timeout, r1.query.startMs);
      assert r1.query == r2.query;
    }
  }

  /** Whether restore fails, and how, does not depend on the prototype's
      fields other than its kind id. */
  lemma RestoreErrorIgnoresPayload(p1: ExecuteQuery, p2: ExecuteQuery, data: string)
    requires p1.id == p2.id
    ensures Restore(p1, data).error == Restore(p2, data).error
  {
  }

  /** With a table keyed by each prototype's own id, the kind check inside
      `restore` always passes: "bad request id" means the tag is not a number
      or names no registered kind. */
  lemma BadIdOnlyFromTag(table: map<nat, Request>, data: string)
    requires KeyedById(table)
    ensures Build(table, data) == Err(BadRequestId) <==>
              (ParseUnsigned(Tag(data), UInt32Max).None? || ParseUnsigned(Tag(data), UInt32Max).value !in table)
  {
    var id := ParseUnsigned(Tag(data), UInt32Max);
    if id.Some? && id.value in table {
      var proto := table[id.value];
      RestoreKindPasses(proto, data);
    }
  }

  /** A message whose tag reads as the request's own kind id passes the kind
      check of `restore`. */
  lemma RestoreKindPasses(proto: Request, data: string)
    requires ParseUnsigned(Tag(data), UInt32Max) == Some(RequestId(proto))
    ensures RestoreRequest(proto, data) != Err(BadRequestId)
  {
    if proto.Execute? {
      RestoreRejects(proto.query, data);
    }
  }

  /** Round trip through the dispatcher: an execute request built with a
      NUL-free command and an ending that is empty or NUL-led is rebuilt
      exactly. */
  lemma DispatchRoundTrip(q: ExecuteQuery, ending: string)
    requires q.id == KindId(ExecuteQ)
    requires Nul !in q.cmd
    requires ending == [] || ending[0] == Nul
    ensures Dispatch(ExecuteQueries.Build(q, ending)) == Ok(Execute(q))
  {
    PrototypeTableKinds();
    BuildRoundTrip(PrototypeTable(), q, ending);
  }

  /** The same round trip over any table that files the execute prototype
      under its kind id. */
  lemma BuildRoundTrip(table: map<nat, Request>, q: ExecuteQuery, ending: string)
    requires KindId(ExecuteQ) in table && table[KindId(ExecuteQ)] == Prototype(ExecuteQ)
    requires q.id == KindId(ExecuteQ)
    requires Nul !in q.cmd
    requires ending == [] || ending[0] == Nul
    ensures Build(table, ExecuteQueries.Build(q, ending)) == Ok(Execute(q))
  {
    var data := ExecuteQueries.Build(q, ending);
    var proto := table[KindId(ExecuteQ)];
    BuildTag(q, ending);
    assert RestoreRequest(proto, data) == Ok(Execute(q)) by {
      RestoreBuildRoundTrip(proto.query, q, ending);
    }
  }

  /** The tag of a built execute request is its kind id. */
  lemma BuildTag(q: ExecuteQuery, ending: string)
    ensures ParseUnsigned(Tag(ExecuteQueries.Build(q, ending)), UInt32Max) == Some(q.id as nat)
  {
    BuildFieldsRead(q, ending);
  }

  /** Registering prototypes adds exactly their ids, files each kind's
      prototype under its id, and leaves every other entry alone. */
  lemma RegisterAllFiles(table: map<nat, Request>, ks: seq<Kind>)
    ensures RegisterAll(table, ks).Keys == table.Keys + KindIds(ks)
    ensures forall k :: k in ks ==> RegisterAll(table, ks)[KindId(k)] == Prototype(k)
    ensures forall id :: id in table && (forall k :: k in ks ==> KindId(k) != id) ==>
              RegisterAll(table, ks)[id] == table[id]
  {
    RegisterAllKeys(table, ks);
    RegisterAllFrame(table, ks);
    forall k | k in ks
      ensures RegisterAll(table, ks)[KindId(k)] == Prototype(k)
    {
      RegisterAllFiled(table, ks, k);
    }
  }

  lemma {:induction false} RegisterAllKeys(table: map<nat, Request>, ks: seq<Kind>)
    ensures RegisterAll(table, ks).Keys == table.Keys + KindIds(ks)
    decreases |ks|
  {
    if ks != [] {
      RegisterAllKeys(Register(table, Prototype(ks[0])), ks[1..]);
    }
  }

  lemma {:induction false} RegisterAllFrame(table: map<nat, Request>, ks: seq<Kind>)
    ensures forall id :: id in table && (forall k :: k in ks ==> KindId(k) != id) ==>
              id in RegisterAll(table, ks) && RegisterAll(table, ks)[id] == table[id]
    decreases |ks|
  {
    if ks != [] {
      var t := Register(table, Prototype(ks[0]));
      RegisterAllFrame(t, ks[1..]);
      forall id | id in table && (forall k :: k in ks ==> KindId(k) != id)
        ensures id in t && t[id] == table[id] && forall k :: k in ks[1..] ==> KindId(k) != id
      {
        assert ks[0] in ks;
      }
    }
  }

  /** A kind's prototype is filed under its id, since no other kind shares it. */
  lemma {:induction false} RegisterAllFiled(table: map<nat, Request>, ks: seq<Kind>, k: Kind)
    requires k in ks
    ensures KindId(k) in RegisterAll(table, ks) && RegisterAll(table, ks)[KindId(k)] == Prototype(k)
    decreases |ks|
  {
    var t := Register(table, Prototype(ks[0]));
    if k in ks[1..] {
      RegisterAllFiled(t, ks[1..], k);
    } else {
      assert k == ks[0];
      forall k' | k' in ks[1..]
        ensures KindId(k') != KindId(k)
      {
        KindIdInjective(k', k);
      }
      RegisterAllFrame(t, ks[1..]);
    }
  }

  /** The constructor's table holds exactly the six kinds, each under its
      own id. */
  lemma PrototypeTableKinds()
    ensures |PrototypeTable()| == 6
    ensures forall k: Kind :: KindId(k) in PrototypeTable() && PrototypeTable()[KindId(k)] == Prototype(k)
    ensures KeyedById(PrototypeTable())
  {
    EveryKindFiled();
    PrototypeTableKeys();
    OrderDistinct();
    var t, ks := PrototypeTable(), ConstructorOrder;
    assert t.Keys == KindIds(ks);
    KindTable(t, ks);
  }

  /** Every kind, not only those listed, has its prototype in the table. */
  lemma EveryKindFiled()
    ensures forall k: Kind :: KindId(k) in PrototypeTable() && PrototypeTable()[KindId(k)] == Prototype(k)
  {
    EveryKindRegistered();
  }

  /** The table holds an entry exactly under each id below 6: the prototype
      of the kind that id names. */
  lemma PrototypeTableById()
    ensures forall id: nat :: id in PrototypeTable() <==> id < 6
    ensures forall id: nat :: id < 6 ==> PrototypeTable()[id] == Prototype(KindOf(id))
  {
    var t := PrototypeTable();
    EveryKindFiled();
    PrototypeTableKeys();
    KindIdsBelow(ConstructorOrder);
    forall id: nat | id < 6
      ensures id in t && t[id] == Prototype(KindOf(id))
    {
      var k := KindOf(id);
      assert KindId(k) in t && t[KindId(k)] == Prototype(k);
    }
  }

  /** The table's keys are the ids of the registered kinds and nothing else. */
  lemma PrototypeTableKeys()
    ensures PrototypeTable().Keys == KindIds(ConstructorOrder)
  {
    var empty: map<nat, Request> := map[];
    RegisterAllKeys(empty, ConstructorOrder);
  }

  /** The constructor registers no kind twice. */
  lemma OrderDistinct()
    ensures |ConstructorOrder| == 6
    ensures forall i, j :: 0 <= i < j < |ConstructorOrder| ==> ConstructorOrder[i] != ConstructorOrder[j]
  {
  }

  /** A table keyed by the ids of distinct kinds, each filed with its own
      prototype, has one entry per kind, each under its own id. */
  lemma KindTable(t: map<nat, Request>, ks: seq<Kind>)
    requires t.Keys == KindIds(ks)
    requires forall i, j :: 0 <= i < j < |ks| ==> ks[i] != ks[j]
    requires forall k: Kind :: KindId(k) in t && t[KindId(k)] == Prototype(k)
    ensures |t| == |ks|
    ensures KeyedById(t)
  {
    KindIdsCard(ks);
    KindIdsBelow(ks);
    forall id | id in t
      ensures RequestId(t[id]) == id
    {
      var k := KindOf(id);
      assert t[KindId(k)] == Prototype(k);
    }
  }

  /** A kind's id is among the ids of `ks` exactly when the kind is in `ks`. */
  lemma {:induction false} KindIdsMember(ks: seq<Kind>, k: Kind)
    ensures KindId(k) in KindIds(ks) <==> k in ks
    decreases |ks|
  {
    if ks != [] {
      KindIdsMember(ks[1..], k);
      KindIdInjective(k, ks[0]);
      assert k in ks <==> k == ks[0] || k in ks[1..];
    }
  }

  /** Every id of a list of kinds is below 6. */
  lemma {:induction false} KindIdsBelow(ks: seq<Kind>)
    ensures forall id :: id in KindIds(ks) ==> id < 6
    decreases |ks|
  {
    if ks != [] {
      KindIdsBelow(ks[1..]);
    }
  }

  /** Distinct kinds have as many ids as there are kinds. */
  lemma {:induction false} KindIdsCard(ks: seq<Kind>)
    requires forall i, j :: 0 <= i < j < |ks| ==> ks[i] != ks[j]
    ensures |KindIds(ks)| == |ks|
    decreases |ks|
  {
    if ks != [] {
      KindIdsCard(ks[1..]);
      KindIdsMember(ks[1..], ks[0]);
      assert ks[0] !in ks[1..] by {
        forall j | 0 <= j < |ks[1..]|
          ensures ks[1..][j] != ks[0]
        {
          assert ks[1..][j] == ks[j + 1];
        }
      }
    }
  }

  /** Every kind is among those the constructor registers. */
  lemma EveryKindRegistered()
    ensures forall k: Kind :: k in ConstructorOrder
  {
    forall k: Kind
      ensures k in ConstructorOrder
    {
      match k
      case VersionQ => assert ConstructorOrder[0] == k;
      case VersionR => assert ConstructorOrder[1] == k;
      case ExecuteQ => assert ConstructorOrder[2] == k;
      case ExecuteR => assert ConstructorOrder[3] == k;
      case QuitQ => assert ConstructorOrder[4] == k;
      case QuitR => assert ConstructorOrder[5] == k;
    }
  }
}

=== FILE: requests.dfy ===
/** The kinds of message exchanged with a check connector. Each request
    object carries its kind as a numeric id (`get_id()`), and the wire form of
    every message starts with that id. The header that fixes the numeric
    values (`request.hh`) is not part of this model: the ids below are assumed
    to follow the order in which the builder's constructor registers the six
    kinds (version, execute and quit, each as a query and a response), and only
    their distinctness matters to the properties proved. */
module Requests {

  datatype Kind =
    | VersionQ
    | VersionR
    | ExecuteQ
    | ExecuteR
    | QuitQ
    | QuitR

  /** The numeric id of a kind. */
  function KindId(k: Kind): (id: nat)
    ensures id < 6
  {
    match k
    case VersionQ => 0
    case VersionR => 1
    case ExecuteQ => 2
    case ExecuteR => 3
    case QuitQ => 4
    case QuitR => 5
  }

  /** The kind a numeric id names. */
  function KindOf(id: nat): (k: Kind)
    requires id < 6
    ensures KindId(k) == id
  {
    if id == 0 then VersionQ else if id == 1 then VersionR else if id == 2 then ExecuteQ
    else if id == 3 then ExecuteR else if id == 4 then QuitQ else QuitR
  }

  /** The reasons a connector message is refused, one per message the engine
      throws while parsing one. */
  datatype ConnectorError =
    | BadRequestArgument   // too few fields
    | BadRequestId         // kind tag unreadable, unregistered, or not this request's
    | InvalidCmdId
    | InvalidTimeout
    | InvalidStartTime

  /** Distinct kinds have distinct ids, so an id names at most one kind. */
  lemma KindIdInjective(a: Kind, b: Kind)
    ensures KindId(a) == KindId(b) <==> a == b
  {
  }
}

=== FILE: results.dfy ===
/** The engine reports a failed parse by throwing `engine_error`, and Qt's
    number readers report one through a `bool* ok` flag. Both become values
    here: `Option` for a reading that may fail, `Result` for an operation
    that yields a value or the error it was refused with. */
module Results {

  datatype Option<+T> = None | Some(value: T)

  datatype Result<+T, +E> = Ok(value: T) | Err(error: E)
}
